=== FILE: README.md ===
# Öğrenen Asistan — a Dafny model of its core

Öğrenen Asistan ("the learning assistant") is a Turkish chat assistant. It
normalises and tokenises what the user types and classifies the message:
question, greeting, farewell, sentiment, topic and keywords. It answers from
a store of earlier exchanges when one is similar enough, otherwise from fixed
reply lists in a fixed priority order. It then learns the exchange when the
message is substantial.

The model covers three parts of the system:

- **Text processing** (`TurkceDilIsleme`, dil_isleme.py). Modules `Text`
  (normalisation and tokenisation) and `Language` (the classifiers, keyword
  extraction, similarity and topic).
- **Knowledge store** (`OgrenmeModulu`, ogrenme_modulu.py). Module
  `Knowledge`, with the stable descending sort in `Ranking` and the id
  numbers in `Numerals`.
- **Reply dispatch and the learning gate** (`OgrenenAsistan`, asistan.py).
  Module `Assistant`.

`Seqs` and `Wrappers` hold generic helpers.

Every operation is a pure function from the old state to the new one. The
store is a `KnowledgeBase` value: its entries are in insertion order (the
order of the Python dict), alongside the topic index and the statistics.
The learning log is a `LearningLog` value and the conversation is a
`State`.

Parameters stand in for three things:

- the similarity primitive `fuzz.ratio` is the `ratio` parameter, any
  function into 0..100;
- clock readings are the `now` parameter;
- `random.choice` is the `roll` parameter, which picks some element of the
  list.

Similarities and thresholds are integer percents:

- `>= 60` to surface an entry (`benzerlik_esigi`, 0.6 by default);
- `> 80` to reuse an answer, and for greetings and farewells;
- `> 70` for a sentiment word.

`fuzz.ratio` is an integer, and `n / 100.0` compared with 0.6 or 0.8 gives
the same answer as `n` compared with 60 or 80. So for the default settings
this representation is exact.

Two facts about the code shape the model:

- **Normalisation is not idempotent.** `temizle_metin` (dil_isleme.py:33-39)
  collapses whitespace before it deletes punctuation. So `"a - b"` becomes
  `"a  b"`, with two spaces, and normalising again gives `"a b"`. The model
  keeps the code's order of steps, and `Text.Normalize` has no idempotence
  lemma.
- **The topic is resolved only when missing.** `yeni_bilgi_ogren` derives a
  topic from the message only when it is given none or an empty one
  (ogrenme_modulu.py:60-61). `ResolveTopic` models exactly that.

## Model

| member | source | states |
|---|---|---|
| Text.NormalizeMarks | dil_isleme.py:27-41 | of `Text.Normalize` (`temizle_metin`): normalising "" gives ""; the result contains no ASCII punctuation other than `?` and `!`; the text contains `?` (and `!`) after normalising iff it did before |
| Text.StripNonSpace | dil_isleme.py:33 | `strip()` removes whitespace only: the non-whitespace characters are kept, in order |
| Text.CollapseSpaces | dil_isleme.py:36 | whitespace collapsing keeps every non-whitespace character in order, leaves only plain spaces and never two whitespace characters side by side |
| Text.CollapseSpacesKeepsWords | dil_isleme.py:36 | collapsing whitespace runs leaves the words of `split()` exactly as they were, in order and with repetitions |
| Text.DropPunctuation | dil_isleme.py:39 | a character survives iff it was in the text and is not punctuation other than `?`/`!` |
| Text.DropPunctuationPointwise | dil_isleme.py:39 | punctuation is deleted character by character: cleaning `a + b` is cleaning `a` then `b`, and one character survives iff it is kept, so order and repetitions are kept |
| Text.LowerKeepsCaseless | dil_isleme.py:41 | lowercasing neither creates nor removes a caseless mark such as `?` or `!` |
| Text.StripBlank | asistan.py:98 | a text strips to nothing exactly when every character is whitespace |
| Text.StripPadding | dil_isleme.py:33 | `strip()` ignores whitespace added at either end of a text |
| Text.NormalizePadding | dil_isleme.py:27-41 | whitespace added at either end of a text does not change its normal form, the empty-text early return included |
| Text.SplitContent | dil_isleme.py:46 | the words of `split()`, joined, are the text minus its whitespace, in order |
| Text.SplitJoin | dil_isleme.py:46 | on text with no whitespace at the ends and only single plain spaces inside, the words of `split()` joined by single spaces give the text back: each word is a maximal run of non-whitespace, and consecutive words are exactly one space apart |
| Text.StripCollapsed | dil_isleme.py:33-36 | after `strip()` and the whitespace collapse, a text has no whitespace at the ends and only single plain spaces inside |
| Text.CollapsedIsJoinedWords | dil_isleme.py:33-36 | `re.sub(r'\s+', ' ', s.strip())` equals `" ".join(s.strip().split())` |
| Text.Tokenize | dil_isleme.py:43-50 | a token is a word of the normalised text that is not a stop-word, and every such word is a token |
| Text.TokenizeOrder | dil_isleme.py:43-50 | for any stop-word list, token `i` is word `f[i]` of the normalised text for ascending positions `f`, and every word that is not a stop-word is hit: order and repetitions are kept |
| Text.TokenizeWords | dil_isleme.py:45-50 | no token is empty, contains whitespace or is a stop-word |
| Text.TokensSpellText | dil_isleme.py:45-46 | with no stop-words the tokens, joined, spell the normalised text minus whitespace: nothing is lost, added or reordered |
| Language.SoruMu | dil_isleme.py:52-66 | a `?` in the raw text makes it a question; otherwise it is one iff some token is exactly a question word, so no list and no `?` give false |
| Language.SelamlasmaMi | dil_isleme.py:68-77 | a greeting iff some token and some configured greeting score above 80; an empty token list or word list gives false |
| Language.VedalasmaMi | dil_isleme.py:79-88 | a farewell iff some token and some configured farewell score above 80 |
| Language.PairCount | dil_isleme.py:99-106 | the sentiment score is zero iff no (token, word) pair scores above the cut-off |
| Language.PairCountIsSize | dil_isleme.py:99-106 | the sentiment score is the number of (token position, word position) pairs scoring above the cut-off |
| Language.DuyguAnalizi | dil_isleme.py:90-113 | positive iff more positive pairs than negative ones, negative iff the reverse, neutral iff equal |
| Language.DuyguAnaliziCases | dil_isleme.py:95-113 | no tokens or no word lists give neutral; a positive match with no negative one gives positive, and the reverse gives negative |
| Language.Keywords | dil_isleme.py:115-123 | at most 5 keywords, pairwise distinct, each a token of at least 3 characters, as many as there are distinct such tokens up to 5 |
| Language.AnahtarKelimeleriCikart | dil_isleme.py:115-123 | the keywords of a text are one enumeration of its distinct tokens of at least 3 characters, as many as there are up to 5 |
| Language.KeywordChoiceSameSet | dil_isleme.py:123 | with at most 5 distinct long tokens, any enumeration order of the set yields the same keywords as a set |
| Language.SimilarityIgnoresPadding | dil_isleme.py:125-127 | whitespace added around either text leaves `benzerlik_hesapla` unchanged, in either position |
| Language.SimilarityUpToNormalForm | dil_isleme.py:125-127 | texts that normalise alike score alike, in either position |
| Language.TopicOf | dil_isleme.py:136-149 | the topic `Language.KonuBelirle` (`konu_belirle`) gives for a text's keywords: exactly one of teknoloji/eğitim/kişisel/genel, by exact keyword membership, in the priority technology, education, personal, general |
| Language.TopicIndependentOfOrder | dil_isleme.py:129-149 | with at most 5 distinct long tokens the topic does not depend on the set's enumeration order |
| Numerals.DigitsValueOfNatToString | ogrenme_modulu.py:67 | `str(n)` reads back as `n` |
| Numerals.IdNumberOfMakeId | ogrenme_modulu.py:67 | the id `konu + "_" + str(n)` ends in the number `n`, whatever the topic |
| Numerals.MakeIdInjective | ogrenme_modulu.py:67 | ids built from different counts differ |
| Ranking.InsertSorted | ogrenme_modulu.py:136 | inserting into a descending sequence keeps it descending |
| Ranking.InsertPermutes | ogrenme_modulu.py:136 | insertion adds exactly the new element |
| Ranking.SortDescCorrect | ogrenme_modulu.py:136 | the sort is descending by score, a permutation, and stable: the elements of each score keep their order |
| Ranking.SortedStableUnique | ogrenme_modulu.py:136 | a stable descending order is unique: two such orders of the same elements are equal |
| Ranking.WithScorePrefix | ogrenme_modulu.py:138 | cutting a sequence to a prefix keeps a prefix of each score's elements |
| Knowledge.EmptyBaseValid | ogrenme_modulu.py:34-44 | the store that a missing or unreadable file loads as, with no entries, topics or statistics, satisfies the store invariant |
| Knowledge.Find | ogrenme_modulu.py:150 | dictionary access by id: the first position holding the id, or none when no entry has it |
| Knowledge.IstatistikleriGuncelle | ogrenme_modulu.py:186-193 | the statistics afterwards count the entries, carry version "1.0" and the time; the entries and index are untouched |
| Knowledge.OgrenmeGecmisineEkle | ogrenme_modulu.py:195-215 | the log gains exactly the one record; exactly one of the success and failure counters grows by one, as `basarili` says; the last-learned time is now |
| Knowledge.ResolveTopic | ogrenme_modulu.py:60-61 | the topic used is never empty: a missing or empty topic is replaced by one of the four topics worked out from the message |
| Knowledge.Remember | ogrenme_modulu.py:82-101 | the entry is stored under its id and every other id reads as before; the statistics are refreshed, counting the stored entries and stamped with the current time; the topic index gains the id at the end of the entry's topic list, created if absent; the log gains a success record |
| Knowledge.AssignOthers | ogrenme_modulu.py:86 | `bilgiler[id] = e` leaves every other id reading as before |
| Knowledge.YeniBilgiOgren | ogrenme_modulu.py:104-108 | learning reports success whether or not saving worked |
| Knowledge.AssignLookup | ogrenme_modulu.py:86 | after `bilgiler[id] = e` the id reads back `e` |
| Knowledge.LearnEffects | ogrenme_modulu.py:60-101 | the entry stored under `konu + "_" + str(count)` holds the message and answer as given, the keywords and use count 1; the id ends its topic's list; other topics are untouched; the log gains one success record and the success counter grows by 1 |
| Knowledge.FreshId | ogrenme_modulu.py:67 | on a valid store the next id names no entry |
| Knowledge.RememberPreservesValid | ogrenme_modulu.py:82-98 | storing an entry whose id ends in the entry count appends it and keeps the store valid |
| Knowledge.LearnPreservesValid | ogrenme_modulu.py:67-98 | from a valid store, learning uses a fresh id, grows the store by exactly one, keeps the old entries in place and keeps distinct ids, id numbers below the count, an index naming only existing entries and correct statistics |
| Knowledge.Candidates | ogrenme_modulu.py:122-133 | the candidates are exactly the stored entries whose similarity reaches the threshold, each with that similarity |
| Knowledge.CandidatesInStoreOrder | ogrenme_modulu.py:122-133 | the candidates are the qualifying entries in store order: candidate `i` is entry `f[i]` with its score, `f` ascending, and every entry reaching the threshold is among them |
| Knowledge.BenzerBilgiBul | ogrenme_modulu.py:115-138 | at most `limit` results |
| Knowledge.SimilarSpec | ogrenme_modulu.py:115-138 | every result is a stored entry scoring at least the threshold; results are best first, with ties in store order; an empty store gives nothing; below the limit every qualifying entry comes back |
| Knowledge.SimilarTopK | ogrenme_modulu.py:135-138 | a non-negative limit returns `min(limit, number of candidates)` results, drawn from the candidates, and no candidate left out scores above one returned |
| Knowledge.TopIsBest | ogrenme_modulu.py:142 | the single best result exists iff some entry reaches the threshold, and it scores at least as much as every entry that does |
| Knowledge.TopIsFirstBest | ogrenme_modulu.py:136-138 | no stored entry before the single best result scores as much as it: among equal best scores the stable sort keeps the first in store order |
| Knowledge.TopEntryIsFirstBest | ogrenme_modulu.py:136-150 | on a valid store the best result is the entry its id finds, it scores at least every qualifying entry, and every entry before it scores strictly less |
| Knowledge.EnIyiCevapBul | ogrenme_modulu.py:140-156 | the reuse lookup leaves the topic index and statistics alone, keeps the entry count, and leaves every entry either unchanged or with one more use stamped now |
| Knowledge.Bump | ogrenme_modulu.py:150-152 | counting a use changes only the entry under that id: it reads back with one more use stamped now, every entry under another id is unchanged, and a missing id changes nothing |
| Knowledge.BestAnswerSpec | ogrenme_modulu.py:140-156 | an answer comes back iff some entry is over both thresholds, and it is the answer of a best-scoring entry (which one among ties is stated by `Knowledge.BestAnswerBumpsItsEntry`); without an answer the store is unchanged; use counts never decrease |
| Knowledge.BestAnswerBumpsItsEntry | ogrenme_modulu.py:136-154 | on a valid store the answer is that of one entry, the first in store order among the best-scoring qualifying entries; that entry, and only it, gains one use stamped now |
| Knowledge.ReuseBumpsTop | ogrenme_modulu.py:142-152 | a reused answer and the use it records both belong to the stored entry under the best result's id, and that entry is over both thresholds |
| Knowledge.ReuseKeepsValid | ogrenme_modulu.py:148-152 | counting a use keeps the store valid |
| Knowledge.EntriesOf | ogrenme_modulu.py:166-168 | the entries gathered are stored entries, at most one per id |
| Knowledge.EntriesOfPresent | ogrenme_modulu.py:166-168 | when every id names an entry, each id yields its entry, in order |
| Knowledge.KonuBazliBilgiGetir | ogrenme_modulu.py:158-170 | an unknown topic gives nothing; otherwise at most `limit` stored entries |
| Knowledge.TopicLookupFollowsIndex | ogrenme_modulu.py:163-170 | on a valid store the result is the entries of the topic's first `limit` ids, one for one and in index order |
| Knowledge.BilgiGuncelle | ogrenme_modulu.py:172-184 | the update succeeds iff the id is stored; a failed update changes nothing; the index and statistics never change |
| Knowledge.UpdateSpec | ogrenme_modulu.py:172-184 | after an update the id reads back its entry with only the answer and the timestamp replaced; every other entry is unchanged; validity is kept |
| Knowledge.OgrenmeIstatistikleriGetir | ogrenme_modulu.py:217-230 | the report counts the entries; the success rate is 0 with no attempts, and otherwise successes × 100 / attempts, so it lies in [0, 100] |
| Assistant.Pick | asistan.py:240-243 | the chosen reply is an element of the list |
| Assistant.MesajAnalizi | asistan.py:122-133 | the analysed topic is one of the four; no token is a stop-word; a `?` makes the message a question |
| Assistant.SoruCevapla | asistan.py:176-188 | a question is answered either from the question replies or by quoting a stored answer |
| Assistant.QuestionQuotesFirstEntry | asistan.py:179-188 | on a valid store, a topic with entries is answered by quoting its first entry; otherwise the reply is one of the question replies |
| Assistant.KisiselCevap | asistan.py:208-228 | the personal reply comes from the list of the message's sentiment |
| Assistant.CevapUret | asistan.py:135-174 | a non-empty learned answer is replied as "💡 " plus the answer; otherwise farewell, greeting, question, topic and general replies come from their own lists, each branch only when all earlier ones failed; the topic index and statistics are kept, the entry count is kept, and every entry is either unchanged or has one more use stamped now |
| Assistant.OgrenmeSureci | asistan.py:245-253 | a message not worth learning leaves the store and log unchanged; one worth learning adds one log record |
| Assistant.LearningGate | asistan.py:245-253 | learning happens iff the message has at least 3 tokens and is neither a greeting nor a farewell; it adds one entry, under the analysed topic, and keeps the store valid |
| Assistant.MesajIsle | asistan.py:96-120 | a blank message gets the fixed prompt and changes nothing; any other adds exactly one history record holding the message and the returned reply |
| Assistant.MessageSpec | asistan.py:96-120 | a whitespace-only message changes nothing; any other extends the history by exactly one record, holding the message and the reply, keeping earlier records, and keeps the store valid |
| Assistant.GateStoresTurn | asistan.py:245-253 | a turn that is not worth learning leaves the store and the log alone; one that is appends one entry holding the message, the reply, the topic, the keywords, a fresh id and use count 1, and logs a successful `yeni_bilgi` record |
| Assistant.MessageFollowsHandlers | asistan.py:108-118 | for a non-blank message the returned reply is the one the reply ladder produces for its analysis, and the store grows by exactly one entry, holding that message and reply under the analysed topic, exactly when the turn is worth learning (otherwise the log is untouched) |

## Left out

- JSON persistence is not modelled: `_yukle_json`, `_kaydet_json`,
  `verileri_kaydet` and the automatic saves (ogrenme_modulu.py:34-54, 104-106,
  181-182, 232-237). The results of the automatic saves at
  ogrenme_modulu.py:105-106 and 182 are discarded by their callers.
  `verileri_kaydet` does return `bilgi_kaydedildi and gecmis_kaydedildi`, and the
  `kaydet` command at asistan.py:302-306 branches on it; it is left out together
  with the rest of persistence.
- The rules file loader (dil_isleme.py:18-25) is left out. The rules are a
  `LanguageRules` value, and a missing list is empty.
- User profiles (asistan.py:50-94), the interactive loop, printing, colours
  and pauses are presentation and I/O, so they are left out.
- `fuzz.ratio` is the uninterpreted `ratio` parameter. No symmetry, identity
  or other property of it is assumed.
- Clock readings are the `now` parameter. The ISO timestamp strings are not
  modelled.
- `random.choice` is the `roll` parameter. Contracts only say that the reply
  is some element of its list.
- The enumeration order of `set` in `anahtar_kelimeleri_cikart` is
  unspecified. `Language.Keywords` fixes the order of first occurrence.
  `KeywordChoice` describes what any order may give, and
  `TopicIndependentOfOrder` shows that the topic does not depend on the
  order when there are at most five distinct long tokens.
- Text.LowerChar: lower-casing is modelled for ASCII, Latin-1 capitals, Ğ, Ş
  and İ (which becomes `i` plus a combining dot). Every other character is
  left unchanged, including capitals that Python does lower-case, such as
  U+0100 Ā and U+0141 Ł.
- A configured `benzerlik_esigi` is an integer percent. A non-default
  fractional threshold such as 0.655 is not modelled.
- The success rate is an exact `real`. The float rounding of
  `basarili / toplam * 100` is not modelled.
- The failure branch of `yeni_bilgi_ogren` is not modelled
  (ogrenme_modulu.py:110-113). Nothing in the model can raise there, and the
  store is a typed value rather than a loaded dict.
- Malformed loaded data is not modelled. For example, `konular` present
  while `bilgiler` is missing, which raises `KeyError` in
  `konu_bazli_bilgi_getir`. The model's store always has both parts.
- Unused settings and fields are left out: `ogrenme_hizi`, `ogrenme_esigi`
  (ogrenme_modulu.py:30-31) and the never-read `basari_skoru` (line 78).
- `otomatik_kaydet` (ogrenme_modulu.py:104, 181) only decides whether a
  change is saved to disk. It is left out together with saving.
- Assistant.TitleWord: `str.title()` is modelled only for what it receives
  here, a single lower-case word whose first letter is ASCII. That covers
  all four topics.
- Knowledge.BenzerBilgiBul returns scored items instead of dict copies with
  a `benzerlik_skoru` key. Being a pure function, it cannot modify the store.

=== FILE: assistant.dfy ===
/**
  The reply dispatch and learning gate of `OgrenenAsistan` (asistan.py):
  a message is analysed, answered from the store or from a fixed reply list
  in priority order, recorded in the conversation history, and learned when
  it is substantial. `random.choice` becomes a `roll` choosing some element.
*/
module Assistant {
  import opened Wrappers
  import opened Text
  import opened Language
  import opened Numerals
  import opened Knowledge

  const Ad := "Öğrenen Asistan"

  /** The answer to a blank message. */
  const BosMesajCevabi := "🤔 Bir şey söylemedin. Benimle sohbet etmek ister misin?"

  // ---------------------------------------------------------------------
  // The reply lists of `_cevap_uret` and its helpers

  const Vedalasmalar: seq<string> := [
    "👋 Görüşmek üzere! Keyifli günler!",
    "🌟 Hoşça kal! Tekrar konuşmak için sabırsızlanıyorum!",
    "💙 Güle güle! Benimle sohbet ettiğin için teşekkürler!"]

  const Selamlamalar: seq<string> := [
    "🤖 Merhaba! Ben " + Ad + ". Nasılsın?",
    "👋 Selam! Seninle tanışmak güzel! Bugün nasıl geçiyor?",
    "🌟 Hey! Benimle sohbet etmek için geldin, bu harika!"]

  const Sorular: seq<string> := [
    "🤔 Bu konuda henüz yeterince bilgim yok, ama öğrenmeye açığım! Bana daha fazla anlat?",
    "💭 İlginç bir soru! Bu konuda benimle paylaşacağın bilgiler var mı?",
    "🎯 Bu soruyu cevaplamak için daha fazla bilgiye ihtiyacım var. Bana yardım eder misin?"]

  const TeknolojiCevaplari: seq<string> := [
    "💻 Teknoloji gerçekten heyecan verici! Bu konuda daha fazla bilgi paylaşır mısın?",
    "🔧 Yazılım geliştirme konusunda meraklıyım. Hangi teknolojilerle çalışıyorsun?",
    "⚡ Teknolojik gelişmeler beni de etkiliyor! Bu konuda neler düşünüyorsun?"]

  const EgitimCevaplari: seq<string> := [
    "📚 Öğrenmeyi çok seviyorum! Sen de sürekli öğrenmeyi seviyor musun?",
    "🎓 Eğitim hayatımızı şekillendiren önemli bir süreç. Bu konuda ne düşünüyorsun?",
    "🧠 Bilgi paylaşmak güzel! Bana da öğretmek istediğin şeyler var mı?"]

  const OlumluCevaplar: seq<string> := [
    "😊 Bu güzel! Mutlu olduğunu duyduğuma sevindim!",
    "🌟 Harika! Olumlu enerjin beni de mutlu ediyor!",
    "💫 Ne güzel! Böyle pozitif şeyler duymak çok hoş!"]

  const OlumsuzCevaplar: seq<string> := [
    "😔 Üzgün olduğunu duyduğuma ben de üzüldüm. Konuşmak ister misin?",
    "💙 Zor zamanlar geçirdiğin anlaşılıyor. Buradayım, dinliyorum.",
    "🤗 Her şey geçecek, merak etme. Seninle konuşmak beni mutlu ediyor."]

  const NotrCevaplar: seq<string> := [
    "💭 Anlıyorum. Bu konuda nasıl hissettiğini merak ediyorum.",
    "🎯 İlginç bir durum. Bunun hakkında ne düşünüyorsun?",
    "💡 Bu konuda daha fazla detay verebilir misin?"]

  const GenelCevaplar: seq<string> := [
    "🤖 Anlıyorum! Bu konuda benimle daha fazla konuşmak ister misin?",
    "💭 İlginç! Bana bu konuda daha fazla bilgi verebilir misin?",
    "🎯 Senin perspektifin çok değerli. Daha fazla detay paylaşır mısın?",
    "🌟 Bu konuda öğrenmeye açığım. Bana öğretir misin?"]

  /** `_rastgele_sec`: the element the roll lands on. */
  function Pick(liste: seq<string>, roll: nat): (r: string)
    requires liste != []
    ensures r in liste
  {
    liste[roll % |liste|]
  }

  // ---------------------------------------------------------------------
  // _mesaj_analizi

  datatype Analiz = Analiz(
    temizMetin: string,
    kelimeler: seq<string>,
    soruMu: bool,
    selamlasmaMi: bool,
    vedalasmaMi: bool,
    duygu: Duygu,
    konu: string,
    anahtarKelimeler: seq<string>)

  /** `_mesaj_analizi`. */
  function MesajAnalizi(ratio: Ratio, rules: LanguageRules, mesaj: string): (a: Analiz)
    ensures a.konu in {Teknoloji, Egitim, Kisisel, Genel}
    ensures forall w :: w in a.kelimeler ==> w !in rules.durdurmaKelimeleri
    ensures '?' in mesaj ==> a.soruMu
  {
    Analiz(Normalize(mesaj), Kelimeler(rules, mesaj), SoruMu(rules, mesaj),
           SelamlasmaMi(ratio, rules, mesaj), VedalasmaMi(ratio, rules, mesaj),
           DuyguAnalizi(ratio, rules, mesaj), KonuBelirle(rules, mesaj),
           AnahtarKelimeleriCikart(rules, mesaj))
  }

  // ---------------------------------------------------------------------
  // _soru_cevapla

  /** `str.title()` on a one-word lower-case topic: its first letter in upper case. */
  function TitleWord(s: string): string {
    if s != [] && 'a' <= s[0] <= 'z' then [(s[0] as int - 32) as char] + s[1..] else s
  }

  /** How a question about a known topic is answered from the store. */
  function Quote(konu: string, cevap: string): string {
    "🤔 " + TitleWord(konu) + " konusunda şunu biliyorum: " + cevap
  }

  /** `_soru_cevapla`. */
  function SoruCevapla(kb: KnowledgeBase, a: Analiz, roll: nat): (r: string)
    ensures r in Sorular || exists e :: e in kb.bilgiler && r == Quote(a.konu, e.asistanCevap)
  {
    var bilgiler := KonuBazliBilgiGetir(kb, a.konu, 1);
    if bilgiler != [] then Quote(a.konu, bilgiler[0].asistanCevap)
    else Pick(Sorular, roll)
  }

  /** On a valid store a question quotes the first entry of its topic's list
      when the topic has one, and otherwise falls back on the question replies. */
  lemma QuestionQuotesFirstEntry(kb: KnowledgeBase, a: Analiz, roll: nat)
    requires Valid(kb)
    ensures var ids := TopicIds(kb.konular, a.konu);
            && (ids != [] ==> SoruCevapla(kb, a, roll) == Quote(a.konu, Lookup(kb.bilgiler, ids[0]).value.asistanCevap))
            && (ids == [] ==> SoruCevapla(kb, a, roll) in Sorular)
  {
    if a.konu in kb.konular {
      TopicLookupFollowsIndex(kb, a.konu, 1);
      assert kb.konular[a.konu] != [] ==> kb.konular[a.konu][0] in kb.konular[a.konu];
    }
  }

  // ---------------------------------------------------------------------
  // _kisisel_cevap

  /** The replies for each sentiment. */
  function MoodReplies(duygu: Duygu): seq<string> {
    match duygu
    case Olumlu => OlumluCevaplar
    case Olumsuz => OlumsuzCevaplar
    case Notr => NotrCevaplar
  }

  /** `_kisisel_cevap`. */
  function KisiselCevap(duygu: Duygu, roll: nat): (r: string)
    ensures duygu == Olumlu ==> r in OlumluCevaplar
    ensures duygu == Olumsuz ==> r in OlumsuzCevaplar
    ensures duygu == Notr ==> r in NotrCevaplar
  {
    Pick(MoodReplies(duygu), roll)
  }

  // ---------------------------------------------------------------------
  // _cevap_uret

  /** The reply, and the store after the lookup for a learned answer. */
  datatype Reply = Reply(cevap: string, kb: KnowledgeBase)

  /** A learned answer counts only when it is a non-empty string. */
  predicate HasLearned(reuse: Reuse) {
    reuse.cevap.Some? && reuse.cevap.value != ""
  }

  /** `_cevap_uret`. The reply follows the priority learned answer, farewell,
      greeting, question, topic, general: each branch answers from its own list
      and is taken only when every earlier one was not. The store changes only
      by the use count of the one entry a learned answer came from. */
  function CevapUret(ratio: Ratio, settings: Settings, kb: KnowledgeBase, mesaj: string, a: Analiz,
                     now: Timestamp, roll: nat): (r: Reply)
    ensures r.kb.konular == kb.konular && r.kb.istatistikler == kb.istatistikler
    ensures |r.kb.bilgiler| == |kb.bilgiler|
    ensures forall j :: 0 <= j < |kb.bilgiler| ==> r.kb.bilgiler[j] == kb.bilgiler[j] || r.kb.bilgiler[j] == Used(kb.bilgiler[j], now)
    ensures var reuse := EnIyiCevapBul(ratio, settings, kb, mesaj, now);
            && (HasLearned(reuse) ==> r.cevap == "💡 " + reuse.cevap.value)
            && (!HasLearned(reuse) && a.vedalasmaMi ==> r.cevap in Vedalasmalar)
            && (!HasLearned(reuse) && !a.vedalasmaMi && a.selamlasmaMi ==> r.cevap in Selamlamalar)
            && (!HasLearned(reuse) && !a.vedalasmaMi && !a.selamlasmaMi && a.soruMu ==>
                  r.cevap in Sorular || exists e :: e in r.kb.bilgiler && r.cevap == Quote(a.konu, e.asistanCevap))
            && (!HasLearned(reuse) && !a.vedalasmaMi && !a.selamlasmaMi && !a.soruMu ==>
                  && (a.konu == Teknoloji ==> r.cevap in TeknolojiCevaplari)
                  && (a.konu == Egitim ==> r.cevap in EgitimCevaplari)
                  && (a.konu == Kisisel ==> r.cevap in MoodReplies(a.duygu))
                  && (a.konu !in {Teknoloji, Egitim, Kisisel} ==> r.cevap in GenelCevaplar))
  {
    var reuse := EnIyiCevapBul(ratio, settings, kb, mesaj, now);
    var cevap :=
      if HasLearned(reuse) then "💡 " + reuse.cevap.value
      else if a.vedalasmaMi then Pick(Vedalasmalar, roll)
      else if a.selamlasmaMi then Pick(Selamlamalar, roll)
      else if a.soruMu then SoruCevapla(reuse.kb, a, roll)
      else if a.konu == Teknoloji then Pick(TeknolojiCevaplari, roll)
      else if a.konu == Egitim then Pick(EgitimCevaplari, roll)
      else if a.konu == Kisisel then KisiselCevap(a.duygu, roll)
      else Pick(GenelCevaplar, roll);
    Reply(cevap, reuse.kb)
  }

  // ---------------------------------------------------------------------
  // _ogrenme_sureci

  /** Only a message of at least three tokens that is neither a greeting nor a
      farewell is worth learning. */
  predicate WorthLearning(a: Analiz) {
    |a.kelimeler| >= 3 && !a.selamlasmaMi && !a.vedalasmaMi
  }

  /** `_ogrenme_sureci`: the store and the log after the learning gate. */
  function OgrenmeSureci(rules: LanguageRules, kb: KnowledgeBase, log: LearningLog,
                         mesaj: string, cevap: string, a: Analiz, now: Timestamp): (r: Learned)
    ensures !WorthLearning(a) ==> r == Learned(kb, log, false)
    ensures WorthLearning(a) ==> |r.log.kayitlar| == |log.kayitlar| + 1
  {
    if WorthLearning(a) then YeniBilgiOgren(rules, kb, log, mesaj, cevap, Some(a.konu), now)
    else Learned(kb, log, false)
  }

  /** The gate learns exactly when the message is worth it, and then (the
      analysed topic is never empty) under that topic, one entry more, keeping the store valid. */
  lemma LearningGate(rules: LanguageRules, kb: KnowledgeBase, log: LearningLog,
                     mesaj: string, cevap: string, a: Analiz, now: Timestamp)
    requires Valid(kb)
    ensures var r := OgrenmeSureci(rules, kb, log, mesaj, cevap, a, now);
            && (r.basarili <==> WorthLearning(a))
            && (WorthLearning(a) <==> |r.kb.bilgiler| == |kb.bilgiler| + 1)
            && (WorthLearning(a) && a.konu != "" ==>
                  a.konu in r.kb.konular && MakeId(a.konu, |kb.bilgiler|) in r.kb.konular[a.konu])
            && Valid(r.kb)
  {
    if WorthLearning(a) {
      LearnPreservesValid(rules, kb, log, mesaj, cevap, Some(a.konu), now);
      LearnEffects(rules, kb, log, mesaj, cevap, Some(a.konu), now);
    }
  }

  /** What the gate stores: nothing for a message not worth learning;
      otherwise the message and the reply as a new last entry, under the
      analysed topic and the next id, and one success record in the log. */
  lemma GateStoresTurn(rules: LanguageRules, kb: KnowledgeBase, log: LearningLog,
                       mesaj: string, cevap: string, a: Analiz, now: Timestamp)
    requires Valid(kb) && a.konu in {Teknoloji, Egitim, Kisisel, Genel}
    ensures var r := OgrenmeSureci(rules, kb, log, mesaj, cevap, a, now);
            var id := MakeId(a.konu, |kb.bilgiler|);
            && (!WorthLearning(a) ==> r.kb == kb && r.log == log)
            && (WorthLearning(a) ==>
                  && r.kb.bilgiler == kb.bilgiler + [Entry(id, mesaj, cevap, a.konu, AnahtarKelimeleriCikart(rules, mesaj), now, 1, now)]
                  && r.log.kayitlar == log.kayitlar + [LogRecord(now, "yeni_bilgi", id, true)])
  {
    if WorthLearning(a) {
      assert ResolveTopic(rules, mesaj, Some(a.konu)) == a.konu;
      RememberPreservesValid(kb, log, NewEntry(rules, kb, mesaj, cevap, a.konu, now), now);
    }
  }

  // ---------------------------------------------------------------------
  // mesaj_isle

  /** One record of `konusma_gecmisi`. */
  datatype Turn = Turn(zaman: Timestamp, kullanici: string, asistan: string)

  /** The assistant's state across messages. */
  datatype State = State(kb: KnowledgeBase, log: LearningLog, gecmis: seq<Turn>)

  /** What `mesaj_isle` returns, and the state after it. */
  datatype Processed = Processed(cevap: string, st: State)

  /** `mesaj_isle`. */
  function MesajIsle(ratio: Ratio, rules: LanguageRules, settings: Settings, st: State,
                     mesaj: string, now: Timestamp, roll: nat): (r: Processed)
    ensures Strip(mesaj) == [] ==> r == Processed(BosMesajCevabi, st)
    ensures Strip(mesaj) != [] ==> r.st.gecmis == st.gecmis + [Turn(now, mesaj, r.cevap)]
  {
    if Strip(mesaj) == [] then Processed(BosMesajCevabi, st)
    else
      var a := MesajAnalizi(ratio, rules, mesaj);
      var reply := CevapUret(ratio, settings, st.kb, mesaj, a, now, roll);
      var learned := OgrenmeSureci(rules, reply.kb, st.log, mesaj, reply.cevap, a, now);
      Processed(reply.cevap, State(learned.kb, learned.log, st.gecmis + [Turn(now, mesaj, reply.cevap)]))
  }

  /** A whitespace-only message gets the fixed prompt and changes nothing; any
      other message adds exactly one history record, holding the message and
      the reply returned, and keeps the store valid. */
  lemma MessageSpec(ratio: Ratio, rules: LanguageRules, settings: Settings, st: State,
                    mesaj: string, now: Timestamp, roll: nat)
    requires Valid(st.kb)
    ensures var r := MesajIsle(ratio, rules, settings, st, mesaj, now, roll);
            && ((forall k :: 0 <= k < |mesaj| ==> IsSpace(mesaj[k])) ==> r == Processed(BosMesajCevabi, st))
            && (!(forall k :: 0 <= k < |mesaj| ==> IsSpace(mesaj[k])) ==>
                  && |r.st.gecmis| == |st.gecmis| + 1
                  && r.st.gecmis[..|st.gecmis|] == st.gecmis
                  && r.st.gecmis[|st.gecmis|] == Turn(now, mesaj, r.cevap))
            && Valid(r.st.kb)
  {
    StripBlank(mesaj);
    if Strip(mesaj) != [] {
      var a := MesajAnalizi(ratio, rules, mesaj);
      var reply := CevapUret(ratio, settings, st.kb, mesaj, a, now, roll);
      ReuseKeepsValid(ratio, settings, st.kb, mesaj, now);
      LearningGate(rules, reply.kb, st.log, mesaj, reply.cevap, a, now);
    }
  }

  /** A message that is not blank is answered by `_cevap_uret` (so the reply
      follows its priority ladder) and then passed through the learning gate:
      the store grows by one entry exactly when the message is worth learning,
      and that entry holds the message and the reply under the analysed topic. */
  lemma MessageFollowsHandlers(ratio: Ratio, rules: LanguageRules, settings: Settings, st: State,
                               mesaj: string, now: Timestamp, roll: nat)
    requires Valid(st.kb)
    ensures var r := MesajIsle(ratio, rules, settings, st, mesaj, now, roll);
            var a := MesajAnalizi(ratio, rules, mesaj);
            var n := |st.kb.bilgiler|;
            Strip(mesaj) != [] ==>
              && r.cevap == CevapUret(ratio, settings, st.kb, mesaj, a, now, roll).cevap
              && |r.st.kb.bilgiler| == n + (if WorthLearning(a) then 1 else 0)
              && (WorthLearning(a) ==>
                    r.st.kb.bilgiler[n] == Entry(MakeId(a.konu, n), mesaj, r.cevap, a.konu, AnahtarKelimeleriCikart(rules, mesaj), now, 1, now))
              && (!WorthLearning(a) ==> r.st.log == st.log)
  {
    if Strip(mesaj) != [] {
      var a := MesajAnalizi(ratio, rules, mesaj);
      var reply := CevapUret(ratio, settings, st.kb, mesaj, a, now, roll);
      ReuseKeepsValid(ratio, settings, st.kb, mesaj, now);
      GateStoresTurn(rules, reply.kb, st.log, mesaj, reply.cevap, a, now);
    }
  }
}

=== FILE: knowledge.dfy ===
/**
  The knowledge store of `OgrenmeModulu` (ogrenme_modulu.py): learned entries,
  the topic index, the statistics record and the learning log, with every
  operation a function from the old state to the new one. Timestamps are the
  `now` parameter; `fuzz.ratio` is the `ratio` parameter.
*/
module Knowledge {
  import opened Wrappers
  import opened Seqs
  import opened Language
  import opened Numerals
  import opened Ranking

  type Timestamp = nat

  /** One learned entry (a value of `bilgi_tabani["bilgiler"]`). */
  datatype Entry = Entry(
    id: string,
    kullaniciMesaj: string,           // the user's message, as typed
    asistanCevap: string,             // the answer given to it
    konu: string,                     // topic
    anahtarKelimeler: seq<string>,    // keywords
    ogrenmeTarihi: Timestamp,         // learned at
    kullanimSayisi: int,              // use count
    guncellemeTarihi: Timestamp)      // last touched at

  /** `bilgi_tabani["istatistikler"]`. */
  datatype Istatistikler = Istatistikler(toplamBilgi: nat, sonGuncelleme: Timestamp, version: string)

  /** `bilgi_tabani`: the entries in insertion order (the order of the Python
      dict), the topic index, and the statistics once they have been written. */
  datatype KnowledgeBase = KnowledgeBase(
    bilgiler: seq<Entry>,
    konular: map<string, seq<string>>,
    istatistikler: Option<Istatistikler>)

  const EmptyBase := KnowledgeBase([], map[], None)

  /** One record of `ogrenme_gecmisi["ogrenme_kayitlari"]`. */
  datatype LogRecord = LogRecord(tarih: Timestamp, islemTipi: string, bilgiId: string, basarili: bool)

  /** `ogrenme_gecmisi`; missing counters read as 0 and a missing `son_ogrenme` as `None`. */
  datatype LearningLog = LearningLog(
    kayitlar: seq<LogRecord>,
    basariliOgrenmeler: nat,
    basarisizOgrenmeler: nat,
    sonOgrenme: Option<Timestamp>)

  /** The setting the store reads: `benzerlik_esigi`, in percent (0.6 by default). */
  datatype Settings = Settings(benzerlikEsigi: Percent)

  /** A stored answer is reused only above this similarity, in percent. */
  const ReuseCutoff := 80

  // ---------------------------------------------------------------------
  // The entries as a dictionary keyed by id

  /** The position of the entry stored under `id`. */
  function Find(bs: seq<Entry>, id: string): (r: Option<nat>)
    ensures r.Some? ==> r.value < |bs| && bs[r.value].id == id
    ensures r.Some? ==> forall j :: 0 <= j < r.value ==> bs[j].id != id
    ensures r.None? ==> forall j :: 0 <= j < |bs| ==> bs[j].id != id
  {
    if bs == [] then None
    else if bs[0].id == id then Some(0)
    else match Find(bs[1..], id)
      case None => None
      case Some(i) => Some(i + 1)
  }

  /** `id in bilgiler`. */
  predicate Contains(bs: seq<Entry>, id: string) {
    Find(bs, id).Some?
  }

  /** `bilgiler[id]`, or `None` for a missing key. */
  function Lookup(bs: seq<Entry>, id: string): (r: Option<Entry>)
    ensures r.Some? <==> Contains(bs, id)
    ensures r.Some? ==> r.value in bs && r.value.id == id
  {
    match Find(bs, id)
    case None => None
    case Some(i) => Some(bs[i])
  }

  /** `bilgiler[e.id] = e`: replaces the entry in place, or appends a new key. */
  function Assign(bs: seq<Entry>, e: Entry): seq<Entry> {
    match Find(bs, e.id)
    case Some(i) => bs[i := e]
    case None => bs + [e]
  }

  /** `konular.get(konu, [])`. */
  function TopicIds(konular: map<string, seq<string>>, konu: string): seq<string> {
    if konu in konular then konular[konu] else []
  }

  /** The number an id ends with is below `n`. */
  predicate IdBelow(id: string, n: nat) {
    IdNumber(id).Some? && IdNumber(id).value < n
  }

  /** The store invariant: ids are distinct and each ends in `_` and a number
      below the entry count; every id in the topic index names an entry; the
      statistics, once written, count the entries. */
  ghost predicate Valid(kb: KnowledgeBase) {
    && (forall i, j :: 0 <= i < j < |kb.bilgiler| ==> kb.bilgiler[i].id != kb.bilgiler[j].id)
    && (forall i :: 0 <= i < |kb.bilgiler| ==> IdBelow(kb.bilgiler[i].id, |kb.bilgiler|))
    && (forall t, id :: t in kb.konular && id in kb.konular[t] ==> Contains(kb.bilgiler, id))
    && (kb.istatistikler.Some? ==> kb.istatistikler.value.toplamBilgi == |kb.bilgiler|)
  }

  /** A store starts out empty, and the empty store satisfies the invariant. */
  lemma EmptyBaseValid()
    ensures Valid(EmptyBase)
  {
  }

  // ---------------------------------------------------------------------
  // _istatistikleri_guncelle, _ogrenme_gecmisine_ekle

  /** `_istatistikleri_guncelle`. */
  function IstatistikleriGuncelle(kb: KnowledgeBase, now: Timestamp): (r: KnowledgeBase)
    ensures r.istatistikler.Some? && r.istatistikler.value.toplamBilgi == |r.bilgiler|
    ensures r.istatistikler.value.version == "1.0" && r.istatistikler.value.sonGuncelleme == now
    ensures r.bilgiler == kb.bilgiler && r.konular == kb.konular
  {
    kb.(istatistikler := Some(Istatistikler(|kb.bilgiler|, now, "1.0")))
  }

  /** `_ogrenme_gecmisine_ekle`. */
  function OgrenmeGecmisineEkle(log: LearningLog, islemTipi: string, bilgiId: string, basarili: bool, now: Timestamp): (r: LearningLog)
    ensures r.kayitlar == log.kayitlar + [LogRecord(now, islemTipi, bilgiId, basarili)]
    ensures r.basariliOgrenmeler + r.basarisizOgrenmeler == log.basariliOgrenmeler + log.basarisizOgrenmeler + 1
    ensures basarili ==> r.basariliOgrenmeler == log.basariliOgrenmeler + 1 && r.basarisizOgrenmeler == log.basarisizOgrenmeler
    ensures !basarili ==> r.basarisizOgrenmeler == log.basarisizOgrenmeler + 1 && r.basariliOgrenmeler == log.basariliOgrenmeler
    ensures r.sonOgrenme == Some(now)
  {
    LearningLog(
      log.kayitlar + [LogRecord(now, islemTipi, bilgiId, basarili)],
      if basarili then log.basariliOgrenmeler + 1 else log.basariliOgrenmeler,
      if basarili then log.basarisizOgrenmeler else log.basarisizOgrenmeler + 1,
      Some(now))
  }

  // ---------------------------------------------------------------------
  // yeni_bilgi_ogren

  /** The state after a learning step, and what the call returned. */
  datatype Learned = Learned(kb: KnowledgeBase, log: LearningLog, basarili: bool)

  /** A missing or empty topic is worked out from the message, so an entry's
      topic (and the prefix of its id) is never empty. */
  function ResolveTopic(rules: LanguageRules, mesaj: string, konu: Option<string>): (r: string)
    ensures r != ""
    ensures konu.None? || konu.value == "" ==> r in {Teknoloji, Egitim, Kisisel, Genel}
  {
    if konu.None? || konu.value == "" then KonuBelirle(rules, mesaj) else konu.value
  }

  /** The entry `yeni_bilgi_ogren` stores. */
  function NewEntry(rules: LanguageRules, kb: KnowledgeBase, mesaj: string, cevap: string, konu: string, now: Timestamp): Entry {
    Entry(MakeId(konu, |kb.bilgiler|), mesaj, cevap, konu, AnahtarKelimeleriCikart(rules, mesaj), now, 1, now)
  }

  /** Lines 82-101 of `yeni_bilgi_ogren` once the entry is built: store it under
      its id, append the id to its topic's list, refresh the statistics and log
      a successful learning step. */
  function Remember(kb: KnowledgeBase, log: LearningLog, e: Entry, now: Timestamp): (r: Learned)
    ensures r.kb.konular == kb.konular[e.konu := TopicIds(kb.konular, e.konu) + [e.id]]
    ensures r.log == OgrenmeGecmisineEkle(log, "yeni_bilgi", e.id, true, now)
    ensures Lookup(r.kb.bilgiler, e.id) == Some(e)
    ensures forall id :: id != e.id ==> Lookup(r.kb.bilgiler, id) == Lookup(kb.bilgiler, id)
    ensures r.kb.istatistikler.Some? && r.kb.istatistikler.value.toplamBilgi == |r.kb.bilgiler|
    ensures r.kb.istatistikler.value.sonGuncelleme == now
  {
    AssignLookup(kb.bilgiler, e);
    AssignOthers(kb.bilgiler, e);
    var stored := kb.(bilgiler := Assign(kb.bilgiler, e),
                      konular := kb.konular[e.konu := TopicIds(kb.konular, e.konu) + [e.id]]);
    Learned(IstatistikleriGuncelle(stored, now), OgrenmeGecmisineEkle(log, "yeni_bilgi", e.id, true, now), true)
  }

  /** `yeni_bilgi_ogren`; saving to disk is left out, and its outcome never
      reached the result anyway. */
  function YeniBilgiOgren(rules: LanguageRules, kb: KnowledgeBase, log: LearningLog,
                          mesaj: string, cevap: string, konu: Option<string>, now: Timestamp): (r: Learned)
    ensures r.basarili
  {
    Remember(kb, log, NewEntry(rules, kb, mesaj, cevap, ResolveTopic(rules, mesaj, konu), now), now)
  }

  /** After `bilgiler[e.id] = e` the key reads back `e`. */
  lemma AssignLookup(bs: seq<Entry>, e: Entry)
    ensures Lookup(Assign(bs, e), e.id) == Some(e)
  {
    var r := Assign(bs, e);
    match Find(bs, e.id)
    case Some(i) =>
      assert r[i] == e;
      assert Find(r, e.id) == Some(i);
    case None =>
      assert r[|bs|] == e;
      assert Find(r, e.id) == Some(|bs|);
  }

  /** Two sequences that hold `id` at the same positions (`b` may be longer,
      without `id` past the end of `a`) find it at the same place. */
  lemma FindAgrees(a: seq<Entry>, b: seq<Entry>, id: string)
    requires |a| <= |b|
    requires forall j :: 0 <= j < |a| ==> (a[j].id == id <==> b[j].id == id)
    requires forall j :: |a| <= j < |b| ==> b[j].id != id
    ensures Find(b, id) == Find(a, id)
  {
    var fa, fb := Find(a, id), Find(b, id);
    match fa
    case Some(i) =>
      assert b[i].id == id;
      FindAtMost(b, id, i);
      var k := fb.value;
      assert a[k].id == id;
      FindAtMost(a, id, k);
      assert k == i;
      assert fb == Some(i);
    case None =>
      assert fb == None;
  }

  /** An id held at position `m` is found, at or before `m`. */
  lemma FindAtMost(bs: seq<Entry>, id: string, m: nat)
    requires m < |bs| && bs[m].id == id
    ensures Find(bs, id).Some? && Find(bs, id).value <= m
  {
  }

  /** `bilgiler[e.id] = e` leaves the key `id` reading as before when it is
      another key. */
  lemma AssignOther(bs: seq<Entry>, e: Entry, id: string)
    requires id != e.id
    ensures Lookup(Assign(bs, e), id) == Lookup(bs, id)
  {
    var r := Assign(bs, e);
    match Find(bs, e.id)
    case Some(k) =>
      FindAgrees(bs, r, id);
    case None =>
      FindAgrees(bs, r, id);
  }

  /** `bilgiler[e.id] = e` leaves every other key reading as before. */
  lemma AssignOthers(bs: seq<Entry>, e: Entry)
    ensures forall id :: id != e.id ==> Lookup(Assign(bs, e), id) == Lookup(bs, id)
  {
    forall id | id != e.id
      ensures Lookup(Assign(bs, e), id) == Lookup(bs, id)
    {
      AssignOther(bs, e, id);
    }
  }

  /** What a learning step stores: the entry under `konu + "_" + str(count)`
      with the message and answer as given and a use count of 1; its id at the
      end of its topic's list; every other topic list as it was; one more
      successful record in the log. */
  lemma LearnEffects(rules: LanguageRules, kb: KnowledgeBase, log: LearningLog,
                     mesaj: string, cevap: string, konu: Option<string>, now: Timestamp)
    ensures var r := YeniBilgiOgren(rules, kb, log, mesaj, cevap, konu, now);
            var k := ResolveTopic(rules, mesaj, konu);
            var id := MakeId(k, |kb.bilgiler|);
            && Lookup(r.kb.bilgiler, id) == Some(Entry(id, mesaj, cevap, k, AnahtarKelimeleriCikart(rules, mesaj), now, 1, now))
            && r.kb.konular[k] == TopicIds(kb.konular, k) + [id]
            && (forall t :: t != k ==> (t in r.kb.konular <==> t in kb.konular))
            && (forall t :: t != k && t in kb.konular ==> r.kb.konular[t] == kb.konular[t])
            && r.log.kayitlar == log.kayitlar + [LogRecord(now, "yeni_bilgi", id, true)]
            && r.log.basariliOgrenmeler == log.basariliOgrenmeler + 1
  {
    var e := NewEntry(rules, kb, mesaj, cevap, ResolveTopic(rules, mesaj, konu), now);
    AssignLookup(kb.bilgiler, e);
  }

  /** An id ending in a number that is at least the entry count names no entry. */
  lemma FreshId(kb: KnowledgeBase, konu: string)
    requires Valid(kb)
    ensures !Contains(kb.bilgiler, MakeId(konu, |kb.bilgiler|))
  {
    IdNumberOfMakeId(konu, |kb.bilgiler|);
  }

  /** Storing a fresh entry whose id ends in the entry count keeps a valid store valid. */
  lemma RememberPreservesValid(kb: KnowledgeBase, log: LearningLog, e: Entry, now: Timestamp)
    requires Valid(kb)
    requires e.id == MakeId(e.konu, |kb.bilgiler|)
    ensures Remember(kb, log, e, now).kb.bilgiler == kb.bilgiler + [e]
    ensures Valid(Remember(kb, log, e, now).kb)
  {
    var n := |kb.bilgiler|;
    FreshId(kb, e.konu);
    var bs := kb.bilgiler + [e];
    assert Assign(kb.bilgiler, e) == bs;
    IdNumberOfMakeId(e.konu, n);
    forall i | 0 <= i < n + 1
      ensures IdBelow(bs[i].id, n + 1)
    {
      if i < n {
        assert IdBelow(kb.bilgiler[i].id, n);
      }
    }
    var konular := Remember(kb, log, e, now).kb.konular;
    forall t, id | t in konular && id in konular[t]
      ensures Contains(bs, id)
    {
      if id != e.id {
        assert t in kb.konular && id in kb.konular[t];
        assert Contains(kb.bilgiler, id);
        var j := Find(kb.bilgiler, id).value;
        assert bs[j].id == id;
      } else {
        assert bs[n].id == id;
      }
    }
  }

  /** Learning from a valid store: the new id is fresh, the entry count grows
      by exactly one, the old entries stay in place, and the invariant (so
      also the index) still holds. */
  lemma LearnPreservesValid(rules: LanguageRules, kb: KnowledgeBase, log: LearningLog,
                            mesaj: string, cevap: string, konu: Option<string>, now: Timestamp)
    requires Valid(kb)
    ensures var r := YeniBilgiOgren(rules, kb, log, mesaj, cevap, konu, now);
            && !Contains(kb.bilgiler, MakeId(ResolveTopic(rules, mesaj, konu), |kb.bilgiler|))
            && |r.kb.bilgiler| == |kb.bilgiler| + 1
            && r.kb.bilgiler[..|kb.bilgiler|] == kb.bilgiler
            && Valid(r.kb)
  {
    var e := NewEntry(rules, kb, mesaj, cevap, ResolveTopic(rules, mesaj, konu), now);
    FreshId(kb, e.konu);
    RememberPreservesValid(kb, log, e, now);
    assert (kb.bilgiler + [e])[..|kb.bilgiler|] == kb.bilgiler;
  }

  // ---------------------------------------------------------------------
  // benzer_bilgi_bul

  /** The similarity of the message to an entry's stored message, in percent. */
  function Similarity(ratio: Ratio, mesaj: string, e: Entry): Percent {
    BenzerlikHesapla(ratio, mesaj, e.kullaniciMesaj)
  }

  /** The entries reaching the threshold, each with its score, in store order. */
  function Candidates(ratio: Ratio, esik: int, bs: seq<Entry>, mesaj: string): (cs: seq<Scored<Entry>>)
    ensures forall c :: c in cs <==> c.item in bs && c.score == Similarity(ratio, mesaj, c.item) && c.score >= esik
  {
    if bs == [] then []
    else
      var s := Similarity(ratio, mesaj, bs[0]);
      (if s >= esik then [Scored(bs[0], s)] else []) + Candidates(ratio, esik, bs[1..], mesaj)
  }

  /** The threshold test of the lookup, as a filter predicate. */
  function Reaches(ratio: Ratio, esik: int, mesaj: string): Entry -> bool {
    e => Similarity(ratio, mesaj, e) >= esik
  }

  /** The candidates are the entries that reach the threshold, scored. */
  lemma {:induction false} CandidatesAsFilter(ratio: Ratio, esik: int, bs: seq<Entry>, mesaj: string)
    ensures var cs := Candidates(ratio, esik, bs, mesaj);
            var ks := Filter(bs, Reaches(ratio, esik, mesaj));
            && |cs| == |ks|
            && forall i :: 0 <= i < |cs| ==> cs[i] == Scored(ks[i], Similarity(ratio, mesaj, ks[i]))
  {
    if bs != [] {
      CandidatesAsFilter(ratio, esik, bs[1..], mesaj);
    }
  }

  /** The candidates come in store order: candidate `i` is entry `f[i]` with its
      score, the positions ascend, and every entry reaching the threshold is
      among them. */
  lemma CandidatesInStoreOrder(ratio: Ratio, esik: int, bs: seq<Entry>, mesaj: string) returns (f: seq<nat>)
    ensures var cs := Candidates(ratio, esik, bs, mesaj);
            && |f| == |cs| && Ascending(f, |bs|)
            && (forall i :: 0 <= i < |cs| ==> cs[i] == Scored(bs[f[i]], Similarity(ratio, mesaj, bs[f[i]])))
            && (forall k :: 0 <= k < |bs| && Similarity(ratio, mesaj, bs[k]) >= esik ==> k in f)
  {
    CandidatesAsFilter(ratio, esik, bs, mesaj);
    f := FilterPositions(bs, Reaches(ratio, esik, mesaj));
  }

  /** `benzer_bilgi_bul`: the copies come back as scored items, so the store
      itself is never written. */
  function BenzerBilgiBul(ratio: Ratio, settings: Settings, kb: KnowledgeBase, mesaj: string, limit: int): (r: seq<Scored<Entry>>)
    ensures limit >= 0 ==> |r| <= limit
  {
    Prefix(SortDesc(Candidates(ratio, settings.benzerlikEsigi, kb.bilgiler, mesaj)), limit)
  }

  /** The lookup returns stored entries with their true scores, all at or above
      the threshold, best first, ties in store order; an empty store gives
      nothing, and when the limit is not reached every qualifying entry is there. */
  lemma SimilarSpec(ratio: Ratio, settings: Settings, kb: KnowledgeBase, mesaj: string, limit: int)
    ensures var r := BenzerBilgiBul(ratio, settings, kb, mesaj, limit);
            var cs := Candidates(ratio, settings.benzerlikEsigi, kb.bilgiler, mesaj);
            && (forall i :: 0 <= i < |r| ==> r[i] in cs)
            && (forall i :: 0 <= i < |r| ==> r[i].item in kb.bilgiler && r[i].score >= settings.benzerlikEsigi)
            && SortedDesc(r)
            && (forall v :: IsPrefix(WithScore(r, v), WithScore(cs, v)))
            && (kb.bilgiler == [] ==> r == [])
            && (limit >= |cs| ==> multiset(r) == multiset(cs))
  {
    var cs := Candidates(ratio, settings.benzerlikEsigi, kb.bilgiler, mesaj);
    var s := SortDesc(cs);
    SortDescCorrect(cs);
    var r := BenzerBilgiBul(ratio, settings, kb, mesaj, limit);
    assert r == s[..|r|];
    assert |s| == |multiset(s)| == |cs|;
    SortedPrefix(cs, s, |r|);
  }

  /** The lookup returns the best `limit` candidates: as many as the limit
      allows, drawn from the candidates, and no candidate left out scores
      above one returned. */
  lemma SimilarTopK(ratio: Ratio, settings: Settings, kb: KnowledgeBase, mesaj: string, limit: int)
    ensures var r := BenzerBilgiBul(ratio, settings, kb, mesaj, limit);
            var cs := Candidates(ratio, settings.benzerlikEsigi, kb.bilgiler, mesaj);
            && (limit >= 0 ==> |r| == Min(limit, |cs|))
            && multiset(r) <= multiset(cs)
            && (forall c, i :: c in multiset(cs) - multiset(r) && 0 <= i < |r| ==> c.score <= r[i].score)
  {
    var cs := Candidates(ratio, settings.benzerlikEsigi, kb.bilgiler, mesaj);
    var s := SortDesc(cs);
    SortDescCorrect(cs);
    var r := BenzerBilgiBul(ratio, settings, kb, mesaj, limit);
    assert r == s[..|r|];
    PrefixKeepsBest(s, |r|);
  }

  // ---------------------------------------------------------------------
  // en_iyi_cevap_bul

  /** What `en_iyi_cevap_bul` returns, and the store after it. */
  datatype Reuse = Reuse(cevap: Option<string>, kb: KnowledgeBase)

  /** The entry `e` after one more use at `now`. */
  function Used(e: Entry, now: Timestamp): Entry {
    e.(kullanimSayisi := e.kullanimSayisi + 1, guncellemeTarihi := now)
  }

  /** Counts one more use of the entry stored under `id`, if there is one:
      that entry reads back used once more at `now`, and no entry under
      another id changes. */
  function Bump(bs: seq<Entry>, id: string, now: Timestamp): (r: seq<Entry>)
    ensures |r| == |bs|
    ensures forall j :: 0 <= j < |bs| ==> r[j].id == bs[j].id && r[j].kullanimSayisi >= bs[j].kullanimSayisi
    ensures forall j :: 0 <= j < |bs| ==> r[j] == bs[j] || r[j] == Used(bs[j], now)
    ensures forall j :: 0 <= j < |bs| && bs[j].id != id ==> r[j] == bs[j]
    ensures Contains(bs, id) ==> Lookup(r, id) == Some(Used(Lookup(bs, id).value, now))
    ensures !Contains(bs, id) ==> r == bs
  {
    match Find(bs, id)
    case None => bs
    case Some(i) =>
      var r := bs[i := Used(bs[i], now)];
      FindAgrees(bs, r, id);
      r
  }

  /** `en_iyi_cevap_bul`. */
  function EnIyiCevapBul(ratio: Ratio, settings: Settings, kb: KnowledgeBase, mesaj: string, now: Timestamp): (r: Reuse)
    ensures r.kb.konular == kb.konular && r.kb.istatistikler == kb.istatistikler
    ensures |r.kb.bilgiler| == |kb.bilgiler|
    ensures forall j :: 0 <= j < |kb.bilgiler| ==> r.kb.bilgiler[j] == kb.bilgiler[j] || r.kb.bilgiler[j] == Used(kb.bilgiler[j], now)
  {
    var top := BenzerBilgiBul(ratio, settings, kb, mesaj, 1);
    if top != [] && top[0].score > ReuseCutoff then
      Reuse(Some(top[0].item.asistanCevap), kb.(bilgiler := Bump(kb.bilgiler, top[0].item.id, now)))
    else
      Reuse(None, kb)
  }

  /** The entry qualifies for reuse: at or above the lookup threshold and above 80. */
  predicate Reusable(ratio: Ratio, settings: Settings, mesaj: string, e: Entry) {
    Similarity(ratio, mesaj, e) >= settings.benzerlikEsigi && Similarity(ratio, mesaj, e) > ReuseCutoff
  }

  /** The single best lookup result: present exactly when some entry reaches
      the threshold, and then a stored entry scoring at least as much as any
      other entry that reaches it. */
  lemma TopIsBest(ratio: Ratio, settings: Settings, kb: KnowledgeBase, mesaj: string)
    ensures var top := BenzerBilgiBul(ratio, settings, kb, mesaj, 1);
            && (top == [] ==> forall d :: d in kb.bilgiler ==> Similarity(ratio, mesaj, d) < settings.benzerlikEsigi)
            && (top != [] ==> && |top| == 1 && top[0].item in kb.bilgiler
                              && top[0].score == Similarity(ratio, mesaj, top[0].item)
                              && top[0].score >= settings.benzerlikEsigi
                              && forall d :: d in kb.bilgiler && Similarity(ratio, mesaj, d) >= settings.benzerlikEsigi
                                   ==> Similarity(ratio, mesaj, d) <= top[0].score)
  {
    var cs := Candidates(ratio, settings.benzerlikEsigi, kb.bilgiler, mesaj);
    var s := SortDesc(cs);
    SortDescCorrect(cs);
    var top := BenzerBilgiBul(ratio, settings, kb, mesaj, 1);
    assert top == s[..|top|];
    if cs != [] {
      assert |s| == |multiset(s)| == |multiset(cs)| == |cs|;
      SortedHeadIsBest(ratio, settings.benzerlikEsigi, kb.bilgiler, mesaj, s);
    } else {
      NoCandidates(ratio, settings.benzerlikEsigi, kb.bilgiler, mesaj);
    }
  }

  /** The head of any descending arrangement of the candidates is a stored
      entry reaching the threshold and scoring at least as much as every
      other entry that reaches it. */
  lemma SortedHeadIsBest(ratio: Ratio, esik: int, bs: seq<Entry>, mesaj: string, s: seq<Scored<Entry>>)
    requires s != [] && SortedDesc(s) && multiset(s) == multiset(Candidates(ratio, esik, bs, mesaj))
    ensures s[0].item in bs && s[0].score == Similarity(ratio, mesaj, s[0].item) && s[0].score >= esik
    ensures forall d :: d in bs && Similarity(ratio, mesaj, d) >= esik ==> Similarity(ratio, mesaj, d) <= s[0].score
  {
    var cs := Candidates(ratio, esik, bs, mesaj);
    assert s[0] in multiset(cs);
    forall d | d in bs && Similarity(ratio, mesaj, d) >= esik
      ensures Similarity(ratio, mesaj, d) <= s[0].score
    {
      var c := Scored(d, Similarity(ratio, mesaj, d));
      assert c in cs;
      assert c in multiset(s);
      SortedHeadMax(s, c);
    }
  }

  /** No candidates means no stored entry reaches the threshold. */
  lemma NoCandidates(ratio: Ratio, esik: int, bs: seq<Entry>, mesaj: string)
    requires Candidates(ratio, esik, bs, mesaj) == []
    ensures forall d :: d in bs ==> Similarity(ratio, mesaj, d) < esik
  {
    forall d | d in bs
      ensures Similarity(ratio, mesaj, d) < esik
    {
      assert Scored(d, Similarity(ratio, mesaj, d)) !in Candidates(ratio, esik, bs, mesaj);
    }
  }

  /** An answer comes back exactly when some stored entry is reusable, and it
      is the answer of a best-scoring qualifying entry. Without an answer the
      store is unchanged; use counts never go down. */
  lemma BestAnswerSpec(ratio: Ratio, settings: Settings, kb: KnowledgeBase, mesaj: string, now: Timestamp)
    ensures var r := EnIyiCevapBul(ratio, settings, kb, mesaj, now);
            && (r.cevap.Some? <==> exists e :: e in kb.bilgiler && Reusable(ratio, settings, mesaj, e))
            && (r.cevap.None? ==> r.kb == kb)
            && (r.cevap.Some? ==> exists e :: (e in kb.bilgiler && Reusable(ratio, settings, mesaj, e)
                  && r.cevap.value == e.asistanCevap
                  && forall d :: d in kb.bilgiler && Similarity(ratio, mesaj, d) >= settings.benzerlikEsigi
                       ==> Similarity(ratio, mesaj, d) <= Similarity(ratio, mesaj, e)))
            && |r.kb.bilgiler| == |kb.bilgiler|
            && forall j :: 0 <= j < |kb.bilgiler| ==> r.kb.bilgiler[j].kullanimSayisi >= kb.bilgiler[j].kullanimSayisi
  {
    TopIsBest(ratio, settings, kb, mesaj);
    var top := BenzerBilgiBul(ratio, settings, kb, mesaj, 1);
    var r := EnIyiCevapBul(ratio, settings, kb, mesaj, now);
    if top != [] && top[0].score > ReuseCutoff {
      var e := top[0].item;
      assert Similarity(ratio, mesaj, e) == top[0].score;
      assert e in kb.bilgiler && Reusable(ratio, settings, mesaj, e);
      assert r.cevap == Some(e.asistanCevap);
    } else {
      assert r == Reuse(None, kb);
      forall e | e in kb.bilgiler
        ensures !Reusable(ratio, settings, mesaj, e)
      {
        if top != [] && Similarity(ratio, mesaj, e) >= settings.benzerlikEsigi {
          assert Similarity(ratio, mesaj, e) <= top[0].score;
        }
      }
    }
  }

  /** On a valid store, the answer and the use counted are those of one entry:
      the first in store order among the best-scoring qualifying entries (the
      stable sort keeps ties in store order). Exactly it gains one use, stamped
      `now`, and nothing else changes. */
  lemma BestAnswerBumpsItsEntry(ratio: Ratio, settings: Settings, kb: KnowledgeBase, mesaj: string, now: Timestamp)
    requires Valid(kb)
    ensures var r := EnIyiCevapBul(ratio, settings, kb, mesaj, now);
            r.cevap.Some? ==> exists i :: (0 <= i < |kb.bilgiler|
              && r.cevap.value == kb.bilgiler[i].asistanCevap
              && Reusable(ratio, settings, mesaj, kb.bilgiler[i])
              && r.kb.bilgiler == kb.bilgiler[i := Used(kb.bilgiler[i], now)]
              && (forall d :: d in kb.bilgiler && Similarity(ratio, mesaj, d) >= settings.benzerlikEsigi
                    ==> Similarity(ratio, mesaj, d) <= Similarity(ratio, mesaj, kb.bilgiler[i]))
              && (forall j :: 0 <= j < i ==> Similarity(ratio, mesaj, kb.bilgiler[j]) < Similarity(ratio, mesaj, kb.bilgiler[i])))
  {
    var r := EnIyiCevapBul(ratio, settings, kb, mesaj, now);
    if r.cevap.Some? {
      ReuseBumpsTop(ratio, settings, kb, mesaj, now);
      TopEntryIsFirstBest(ratio, settings, kb, mesaj);
      var top := BenzerBilgiBul(ratio, settings, kb, mesaj, 1);
      var i := Find(kb.bilgiler, top[0].item.id).value;
      assert 0 <= i < |kb.bilgiler|;
    }
  }

  /** A reused answer, and the one use it records, both belong to the entry
      at the position where the top lookup result's id is found. */
  lemma ReuseBumpsTop(ratio: Ratio, settings: Settings, kb: KnowledgeBase, mesaj: string, now: Timestamp)
    requires Valid(kb)
    ensures var r := EnIyiCevapBul(ratio, settings, kb, mesaj, now);
            var top := BenzerBilgiBul(ratio, settings, kb, mesaj, 1);
            var bs := kb.bilgiler;
            r.cevap.Some? ==>
              && top != [] && Contains(bs, top[0].item.id)
              && var i := Find(bs, top[0].item.id).value;
              && r.cevap.value == bs[i].asistanCevap
              && Reusable(ratio, settings, mesaj, bs[i])
              && r.kb.bilgiler == bs[i := Used(bs[i], now)]
  {
    var r := EnIyiCevapBul(ratio, settings, kb, mesaj, now);
    if r.cevap.Some? {
      var top := BenzerBilgiBul(ratio, settings, kb, mesaj, 1);
      assert top != [] && top[0].score > ReuseCutoff;
      TopEntryIsFirstBest(ratio, settings, kb, mesaj);
      var bs, id := kb.bilgiler, top[0].item.id;
      var i := Find(bs, id).value;
      assert bs[i] == top[0].item;
      BumpAt(bs, id, i, now);
    }
  }

  /** Bumping a found id rewrites exactly the position it is found at. */
  lemma BumpAt(bs: seq<Entry>, id: string, i: nat, now: Timestamp)
    requires Find(bs, id) == Some(i)
    ensures Bump(bs, id, now) == bs[i := Used(bs[i], now)]
  {
  }

  /** On a valid store the top lookup result sits where its id is found, and
      it is the first in store order among the best-scoring qualifying entries. */
  lemma TopEntryIsFirstBest(ratio: Ratio, settings: Settings, kb: KnowledgeBase, mesaj: string)
    requires Valid(kb)
    ensures var top := BenzerBilgiBul(ratio, settings, kb, mesaj, 1);
            var bs := kb.bilgiler;
            top != [] ==>
              && Contains(bs, top[0].item.id)
              && var i := Find(bs, top[0].item.id).value;
              && bs[i] == top[0].item
              && top[0].score == Similarity(ratio, mesaj, bs[i])
              && (forall d :: d in bs && Similarity(ratio, mesaj, d) >= settings.benzerlikEsigi
                    ==> Similarity(ratio, mesaj, d) <= Similarity(ratio, mesaj, bs[i]))
              && (forall j :: 0 <= j < i ==> Similarity(ratio, mesaj, bs[j]) < Similarity(ratio, mesaj, bs[i]))
  {
    var top := BenzerBilgiBul(ratio, settings, kb, mesaj, 1);
    if top != [] {
      TopIsBest(ratio, settings, kb, mesaj);
      TopIsFirstBest(ratio, settings, kb, mesaj);
      var e := top[0].item;
      var k :| 0 <= k < |kb.bilgiler| && kb.bilgiler[k] == e;
      var i := Find(kb.bilgiler, e.id).value;
      assert i == k;
    }
  }

  /** No entry before the top lookup result scores as much as it: among equal
      best scores the lookup returns the first in store order. */
  lemma TopIsFirstBest(ratio: Ratio, settings: Settings, kb: KnowledgeBase, mesaj: string)
    ensures var top := BenzerBilgiBul(ratio, settings, kb, mesaj, 1);
            top != [] ==> && Contains(kb.bilgiler, top[0].item.id)
                          && forall j :: 0 <= j < |kb.bilgiler| && Similarity(ratio, mesaj, kb.bilgiler[j]) >= top[0].score
                               ==> Find(kb.bilgiler, top[0].item.id).value <= j
  {
    var cs := Candidates(ratio, settings.benzerlikEsigi, kb.bilgiler, mesaj);
    var s := SortDesc(cs);
    SortDescCorrect(cs);
    var top := BenzerBilgiBul(ratio, settings, kb, mesaj, 1);
    assert top == s[..|top|];
    if top != [] {
      assert WithScore(s, s[0].score) == WithScore(cs, s[0].score);
      HeadIsFirstBest(ratio, settings.benzerlikEsigi, kb.bilgiler, mesaj, s);
    }
  }

  /** The head of a stable descending arrangement of the candidates is stored
      no later than any entry scoring as much as it. */
  lemma HeadIsFirstBest(ratio: Ratio, esik: int, bs: seq<Entry>, mesaj: string, s: seq<Scored<Entry>>)
    requires s != [] && SortedDesc(s) && multiset(s) == multiset(Candidates(ratio, esik, bs, mesaj))
    requires WithScore(s, s[0].score) == WithScore(Candidates(ratio, esik, bs, mesaj), s[0].score)
    ensures Contains(bs, s[0].item.id)
    ensures forall j :: 0 <= j < |bs| && Similarity(ratio, mesaj, bs[j]) >= s[0].score ==> Find(bs, s[0].item.id).value <= j
  {
    var cs := Candidates(ratio, esik, bs, mesaj);
    assert s[0] in multiset(cs);
    assert s[0] in cs;
    var f := CandidatesInStoreOrder(ratio, esik, bs, mesaj);
    forall j | 0 <= j < |bs| && Similarity(ratio, mesaj, bs[j]) >= s[0].score
      ensures Contains(bs, s[0].item.id) && Find(bs, s[0].item.id).value <= j
    {
      var p := CandidateOf(ratio, esik, bs, mesaj, f, j);
      TopComesFirst(cs, s, f, bs, p);
    }
    var m :| 0 <= m < |bs| && bs[m] == s[0].item;
    FindAtOrBefore(bs, m);
  }

  /** The candidate of an entry reaching the threshold: position `p`, at store
      position `j`, with the entry's score. */
  lemma CandidateOf(ratio: Ratio, esik: int, bs: seq<Entry>, mesaj: string, f: seq<nat>, j: nat) returns (p: nat)
    requires |f| == |Candidates(ratio, esik, bs, mesaj)| && Ascending(f, |bs|)
    requires forall i :: 0 <= i < |f| ==> Candidates(ratio, esik, bs, mesaj)[i] == Scored(bs[f[i]], Similarity(ratio, mesaj, bs[f[i]]))
    requires forall k :: 0 <= k < |bs| && Similarity(ratio, mesaj, bs[k]) >= esik ==> k in f
    requires j < |bs| && Similarity(ratio, mesaj, bs[j]) >= esik
    ensures p < |f| && f[p] == j && Candidates(ratio, esik, bs, mesaj)[p].score == Similarity(ratio, mesaj, bs[j])
  {
    p :| 0 <= p < |f| && f[p] == j;
  }

  /** The step of `TopIsFirstBest` for candidate `p` scoring as much as the
      head of a stable descending arrangement `s` of candidates `cs`, which
      sit at ascending store positions `f`: the head's item is stored at or
      before position `f[p]`. */
  lemma TopComesFirst(cs: seq<Scored<Entry>>, s: seq<Scored<Entry>>, f: seq<nat>, bs: seq<Entry>, p: nat)
    requires SortedDesc(s) && multiset(s) == multiset(cs)
    requires s != [] && WithScore(s, s[0].score) == WithScore(cs, s[0].score)
    requires |f| == |cs| && Ascending(f, |bs|)
    requires forall i :: 0 <= i < |cs| ==> cs[i].item == bs[f[i]]
    requires p < |cs| && cs[p].score >= s[0].score
    ensures Contains(bs, s[0].item.id) && Find(bs, s[0].item.id).value <= f[p]
  {
    var v := s[0].score;
    assert cs[p] in multiset(s);
    SortedHeadMax(s, cs[p]);
    var q := WithScoreHeadEarly(cs, v, p);
    WithScoreHeadSelf(s);
    assert s[0] == cs[q];
    var m := f[q];
    assert s[0].item == bs[m];
    AscendingMonotone(f, |bs|, q, p);
    FindAtOrBefore(bs, m);
  }

  /** An id stored at position `m` is found at or before `m`. */
  lemma FindAtOrBefore(bs: seq<Entry>, m: nat)
    requires m < |bs|
    ensures Contains(bs, bs[m].id) && Find(bs, bs[m].id).value <= m
  {
  }

  /** Counting a use keeps a valid store valid. */
  lemma ReuseKeepsValid(ratio: Ratio, settings: Settings, kb: KnowledgeBase, mesaj: string, now: Timestamp)
    requires Valid(kb)
    ensures Valid(EnIyiCevapBul(ratio, settings, kb, mesaj, now).kb)
  {
    var r := EnIyiCevapBul(ratio, settings, kb, mesaj, now).kb;
    forall t, x | t in r.konular && x in r.konular[t]
      ensures Contains(r.bilgiler, x)
    {
      assert x in kb.konular[t];
      assert Contains(kb.bilgiler, x);
      var j := Find(kb.bilgiler, x).value;
      assert r.bilgiler[j].id == x;
    }
  }

  // ---------------------------------------------------------------------
  // konu_bazli_bilgi_getir

  /** The entries the ids name, in the ids' order; ids with no entry are skipped. */
  function EntriesOf(bs: seq<Entry>, ids: seq<string>): (r: seq<Entry>)
    ensures |r| <= |ids|
    ensures forall e :: e in r ==> e in bs
  {
    if ids == [] then []
    else
      (match Lookup(bs, ids[0]) case Some(e) => [e] case None => []) + EntriesOf(bs, ids[1..])
  }

  /** When every id names an entry, nothing is skipped. */
  lemma {:induction false} EntriesOfPresent(bs: seq<Entry>, ids: seq<string>)
    requires forall id :: id in ids ==> Contains(bs, id)
    ensures |EntriesOf(bs, ids)| == |ids|
    ensures forall i :: 0 <= i < |ids| ==> Lookup(bs, ids[i]) == Some(EntriesOf(bs, ids)[i])
  {
    if ids != [] {
      EntriesOfPresent(bs, ids[1..]);
      var e := Lookup(bs, ids[0]).value;
      assert EntriesOf(bs, ids) == [e] + EntriesOf(bs, ids[1..]);
    }
  }

  /** `konu_bazli_bilgi_getir`. */
  function KonuBazliBilgiGetir(kb: KnowledgeBase, konu: string, limit: int): (r: seq<Entry>)
    ensures konu !in kb.konular ==> r == []
    ensures limit >= 0 ==> |r| <= limit
    ensures forall e :: e in r ==> e in kb.bilgiler
  {
    if konu !in kb.konular then []
    else EntriesOf(kb.bilgiler, Prefix(kb.konular[konu], limit))
  }

  /** On a valid store the result is the entries of the first `limit` ids of the
      topic, one for one and in index order. */
  lemma TopicLookupFollowsIndex(kb: KnowledgeBase, konu: string, limit: int)
    requires Valid(kb) && konu in kb.konular
    ensures var ids := Prefix(kb.konular[konu], limit);
            var r := KonuBazliBilgiGetir(kb, konu, limit);
            && |r| == |ids|
            && forall i :: 0 <= i < |ids| ==> Lookup(kb.bilgiler, ids[i]) == Some(r[i])
  {
    var ids := Prefix(kb.konular[konu], limit);
    forall id | id in ids
      ensures Contains(kb.bilgiler, id)
    {
      assert id in kb.konular[konu];
    }
    EntriesOfPresent(kb.bilgiler, ids);
  }

  // ---------------------------------------------------------------------
  // bilgi_guncelle

  /** What `bilgi_guncelle` returns, and the store after it. */
  datatype Updated = Updated(ok: bool, kb: KnowledgeBase)

  /** `bilgi_guncelle`. */
  function BilgiGuncelle(kb: KnowledgeBase, id: string, yeniCevap: string, now: Timestamp): (r: Updated)
    ensures r.ok <==> Contains(kb.bilgiler, id)
    ensures !r.ok ==> r.kb == kb
    ensures r.kb.konular == kb.konular && r.kb.istatistikler == kb.istatistikler
    ensures |r.kb.bilgiler| == |kb.bilgiler|
  {
    match Find(kb.bilgiler, id)
    case None => Updated(false, kb)
    case Some(i) =>
      var e := kb.bilgiler[i];
      Updated(true, kb.(bilgiler := kb.bilgiler[i := e.(asistanCevap := yeniCevap, guncellemeTarihi := now)]))
  }

  /** An update changes only the answer and timestamp of the entry under `id`,
      which afterwards reads back the new answer, and keeps the store valid. */
  lemma UpdateSpec(kb: KnowledgeBase, id: string, yeniCevap: string, now: Timestamp)
    ensures var r := BilgiGuncelle(kb, id, yeniCevap, now);
            r.ok ==> && Lookup(r.kb.bilgiler, id).Some?
                     && Lookup(r.kb.bilgiler, id).value
                        == Lookup(kb.bilgiler, id).value.(asistanCevap := yeniCevap, guncellemeTarihi := now)
                     && forall j :: 0 <= j < |kb.bilgiler| && kb.bilgiler[j].id != id ==> r.kb.bilgiler[j] == kb.bilgiler[j]
    ensures Valid(kb) ==> Valid(BilgiGuncelle(kb, id, yeniCevap, now).kb)
  {
    var r := BilgiGuncelle(kb, id, yeniCevap, now);
    if r.ok {
      var i := Find(kb.bilgiler, id).value;
      assert r.kb.bilgiler[i].id == id;
      assert Find(r.kb.bilgiler, id) == Some(i);
      if Valid(kb) {
        forall t, x | t in r.kb.konular && x in r.kb.konular[t]
          ensures Contains(r.kb.bilgiler, x)
        {
          assert x in kb.konular[t];
          assert Contains(kb.bilgiler, x);
          var j := Find(kb.bilgiler, x).value;
          assert r.kb.bilgiler[j].id == x;
        }
      }
    }
  }

  // ---------------------------------------------------------------------
  // ogrenme_istatistikleri_getir

  /** The report of `ogrenme_istatistikleri_getir`; a `None` last-learned time
      is the text "Henüz öğrenme yok". */
  datatype Report = Report(toplamBilgi: nat, basarili: nat, basarisiz: nat, basariOrani: real, sonOgrenme: Option<Timestamp>)

  /** `ogrenme_istatistikleri_getir`: the success rate in percent, exact. */
  function OgrenmeIstatistikleriGetir(kb: KnowledgeBase, log: LearningLog): (r: Report)
    ensures r.toplamBilgi == |kb.bilgiler|
    ensures r.basarili == log.basariliOgrenmeler && r.basarisiz == log.basarisizOgrenmeler
    ensures r.basarili + r.basarisiz == 0 ==> r.basariOrani == 0.0
    ensures r.basariOrani * (r.basarili + r.basarisiz) as real == 100.0 * r.basarili as real
    ensures 0.0 <= r.basariOrani <= 100.0
    ensures r.sonOgrenme == log.sonOgrenme
  {
    var b := log.basariliOgrenmeler;
    var toplam := b + log.basarisizOgrenmeler;
    Report(|kb.bilgiler|, b, log.basarisizOgrenmeler,
           if toplam > 0 then b as real / toplam as real * 100.0 else 0.0,
           log.sonOgrenme)
  }
}

=== FILE: language.dfy ===
/**
  The classifier of `TurkceDilIsleme` (dil_isleme.py): question, greeting and
  farewell detection, sentiment, keyword extraction, similarity and topic.
  The language rules file becomes a `LanguageRules` value and `fuzz.ratio`
  becomes the `ratio` parameter.
*/
module Language {
  import opened Seqs
  import opened Text

  /** A similarity score in percent. */
  type Percent = x: int | 0 <= x <= 100

  /** `fuzz.ratio`: some similarity in percent between two strings. Nothing else
      is assumed about it. */
  type Ratio = (string, string) -> Percent

  /** The word lists of the rules file (`dil_kurallari.json`); a missing list is empty. */
  datatype LanguageRules = LanguageRules(
    durdurmaKelimeleri: seq<string>,  // stop-words
    soruKelimeleri: seq<string>,      // question words
    selamlasmalar: seq<string>,       // greetings
    vedalasmalar: seq<string>,        // farewells
    olumluIfadeler: seq<string>,      // positive words
    olumsuzIfadeler: seq<string>)     // negative words

  /** Fuzzy cut-offs, in percent: a greeting or farewell needs more than 80,
      a sentiment word more than 70. */
  const GreetingCutoff := 80
  const SentimentCutoff := 70

  /** `kelimelere_ayir`. */
  function Kelimeler(rules: LanguageRules, metin: string): seq<string> {
    Tokenize(rules.durdurmaKelimeleri, metin)
  }

  // ---------------------------------------------------------------------
  // soru_mu

  function AnyIn(ws: seq<string>, list: seq<string>): (r: bool)
    ensures r <==> exists i :: 0 <= i < |ws| && ws[i] in list
  {
    if ws == [] then false else ws[0] in list || AnyIn(ws[1..], list)
  }

  /** `soru_mu`: a `?` anywhere in the raw text, or a token that is exactly a question word. */
  function SoruMu(rules: LanguageRules, metin: string): (r: bool)
    ensures '?' in metin ==> r
    ensures '?' !in metin ==>
      (r <==> exists i :: 0 <= i < |Kelimeler(rules, metin)| && Kelimeler(rules, metin)[i] in rules.soruKelimeleri)
  {
    '?' in metin || AnyIn(Kelimeler(rules, metin), rules.soruKelimeleri)
  }

  // ---------------------------------------------------------------------
  // selamlasma_mi, vedalasma_mi

  /** Some word of `list` scores above `cutoff` against `w`. */
  function AnyClose(ratio: Ratio, w: string, list: seq<string>, cutoff: int): (r: bool)
    ensures r <==> exists j :: 0 <= j < |list| && ratio(w, list[j]) > cutoff
  {
    if list == [] then false else ratio(w, list[0]) > cutoff || AnyClose(ratio, w, list[1..], cutoff)
  }

  /** The nested loops of `selamlasma_mi`: some token and some listed word score above `cutoff`. */
  function FuzzyHit(ratio: Ratio, ws: seq<string>, list: seq<string>, cutoff: int): (r: bool)
    ensures r <==> exists i, j :: 0 <= i < |ws| && 0 <= j < |list| && ratio(ws[i], list[j]) > cutoff
  {
    if ws == [] then false
    else AnyClose(ratio, ws[0], list, cutoff) || FuzzyHit(ratio, ws[1..], list, cutoff)
  }

  /** `selamlasma_mi`. */
  function SelamlasmaMi(ratio: Ratio, rules: LanguageRules, metin: string): (r: bool)
    ensures r <==> exists i, j :: 0 <= i < |Kelimeler(rules, metin)| && 0 <= j < |rules.selamlasmalar|
                               && ratio(Kelimeler(rules, metin)[i], rules.selamlasmalar[j]) > 80
  {
    FuzzyHit(ratio, Kelimeler(rules, metin), rules.selamlasmalar, GreetingCutoff)
  }

  /** `vedalasma_mi`. */
  function VedalasmaMi(ratio: Ratio, rules: LanguageRules, metin: string): (r: bool)
    ensures r <==> exists i, j :: 0 <= i < |Kelimeler(rules, metin)| && 0 <= j < |rules.vedalasmalar|
                               && ratio(Kelimeler(rules, metin)[i], rules.vedalasmalar[j]) > 80
  {
    FuzzyHit(ratio, Kelimeler(rules, metin), rules.vedalasmalar, GreetingCutoff)
  }

  // ---------------------------------------------------------------------
  // duygu_analizi

  /** How many words of `list` score above `cutoff` against `w`. */
  function CloseCount(ratio: Ratio, w: string, list: seq<string>, cutoff: int): (n: nat)
    ensures n <= |list|
    ensures n == 0 <==> !AnyClose(ratio, w, list, cutoff)
  {
    if list == [] then 0
    else (if ratio(w, list[0]) > cutoff then 1 else 0) + CloseCount(ratio, w, list[1..], cutoff)
  }

  /** The score `duygu_analizi` accumulates: the number of (token, word) pairs scoring above `cutoff`. */
  function PairCount(ratio: Ratio, ws: seq<string>, list: seq<string>, cutoff: int): (n: nat)
    ensures n == 0 <==> !FuzzyHit(ratio, ws, list, cutoff)
  {
    if ws == [] then 0
    else CloseCount(ratio, ws[0], list, cutoff) + PairCount(ratio, ws[1..], list, cutoff)
  }

  /** The positions of `list` whose word scores above `cutoff` against `w`. */
  ghost function CloseSet(ratio: Ratio, w: string, list: seq<string>, cutoff: int): set<int> {
    set j | 0 <= j < |list| && ratio(w, list[j]) > cutoff
  }

  /** The (token position, word position) pairs scoring above `cutoff`. */
  ghost function PairSet(ratio: Ratio, ws: seq<string>, list: seq<string>, cutoff: int): set<(int, int)> {
    set i, j | 0 <= i < |ws| && 0 <= j < |list| && ratio(ws[i], list[j]) > cutoff :: (i, j)
  }

  /** `CloseCount` counts the positions of the list that match, each once. */
  lemma {:induction false} CloseCountIsSize(ratio: Ratio, w: string, list: seq<string>, cutoff: int)
    ensures CloseCount(ratio, w, list, cutoff) == |CloseSet(ratio, w, list, cutoff)|
  {
    if list != [] {
      CloseCountIsSize(ratio, w, list[1..], cutoff);
      var rest := CloseSet(ratio, w, list[1..], cutoff);
      var moved := set j | 1 <= j < |list| && ratio(w, list[j]) > cutoff;
      forall j | j in moved
        ensures exists k :: k in rest && k + 1 == j
      {
        assert list[1..][j - 1] == list[j];
        assert j - 1 in rest;
      }
      InjectiveImage(rest, moved, (k: int) => k + 1);
      var head: set<int> := if ratio(w, list[0]) > cutoff then {0} else {};
      assert CloseSet(ratio, w, list, cutoff) == head + moved;
      assert head * moved == {};
    }
  }

  /** `PairCount` is the number of matching (token, word) pairs, counting
      repeated tokens and repeated words once per position. */
  lemma {:induction false} PairCountIsSize(ratio: Ratio, ws: seq<string>, list: seq<string>, cutoff: int)
    ensures PairCount(ratio, ws, list, cutoff) == |PairSet(ratio, ws, list, cutoff)|
  {
    if ws != [] {
      PairCountIsSize(ratio, ws[1..], list, cutoff);
      CloseCountIsSize(ratio, ws[0], list, cutoff);
      var a := FirstRow(ratio, ws, list, cutoff);
      var b := LaterRows(ratio, ws, list, cutoff);
      assert PairSet(ratio, ws, list, cutoff) == a + b;
      assert a * b == {};
    }
  }

  /** The pairs of the first token, as many as the words it matches. */
  lemma FirstRow(ratio: Ratio, ws: seq<string>, list: seq<string>, cutoff: int) returns (a: set<(int, int)>)
    requires ws != []
    ensures a == set j | 0 <= j < |list| && ratio(ws[0], list[j]) > cutoff :: (0, j)
    ensures |a| == |CloseSet(ratio, ws[0], list, cutoff)|
  {
    a := set j | 0 <= j < |list| && ratio(ws[0], list[j]) > cutoff :: (0, j);
    forall q | q in a
      ensures exists j :: j in CloseSet(ratio, ws[0], list, cutoff) && (0, j) == q
    {
      assert q.1 in CloseSet(ratio, ws[0], list, cutoff);
    }
    InjectiveImage(CloseSet(ratio, ws[0], list, cutoff), a, (j: int) => (0, j));
  }

  /** The pairs of the later tokens, as many as the pairs of `ws[1..]`. */
  lemma LaterRows(ratio: Ratio, ws: seq<string>, list: seq<string>, cutoff: int) returns (b: set<(int, int)>)
    requires ws != []
    ensures b == set i, j | 1 <= i < |ws| && 0 <= j < |list| && ratio(ws[i], list[j]) > cutoff :: (i, j)
    ensures |b| == |PairSet(ratio, ws[1..], list, cutoff)|
  {
    var rest := PairSet(ratio, ws[1..], list, cutoff);
    b := set i, j | 1 <= i < |ws| && 0 <= j < |list| && ratio(ws[i], list[j]) > cutoff :: (i, j);
    forall q | q in b
      ensures exists p :: p in rest && (p.0 + 1, p.1) == q
    {
      assert ws[1..][q.0 - 1] == ws[q.0];
      assert (q.0 - 1, q.1) in rest;
    }
    forall p | p in rest
      ensures (p.0 + 1, p.1) in b
    {
      assert ws[1..][p.0] == ws[p.0 + 1];
    }
    InjectiveImage(rest, b, (p: (int, int)) => (p.0 + 1, p.1));
  }

  datatype Duygu = Olumlu | Olumsuz | Notr

  /** `duygu_analizi`: positive when more (token, positive word) pairs match than
      negative ones, negative in the opposite case, neutral on a tie. */
  function DuyguAnalizi(ratio: Ratio, rules: LanguageRules, metin: string): (d: Duygu)
    ensures var ws := Kelimeler(rules, metin);
      var pos := PairCount(ratio, ws, rules.olumluIfadeler, 70);
      var neg := PairCount(ratio, ws, rules.olumsuzIfadeler, 70);
      && (d == Olumlu <==> pos > neg)
      && (d == Olumsuz <==> neg > pos)
      && (d == Notr <==> pos == neg)
  {
    var ws := Kelimeler(rules, metin);
    var pos := PairCount(ratio, ws, rules.olumluIfadeler, SentimentCutoff);
    var neg := PairCount(ratio, ws, rules.olumsuzIfadeler, SentimentCutoff);
    if pos > neg then Olumlu else if neg > pos then Olumsuz else Notr
  }

  /** With no token, or no word list, the sentiment is neutral; a positive match
      with no negative one is positive, and the other way round. */
  lemma DuyguAnaliziCases(ratio: Ratio, rules: LanguageRules, metin: string)
    ensures var ws := Kelimeler(rules, metin);
      && (ws == [] ==> DuyguAnalizi(ratio, rules, metin) == Notr)
      && (rules.olumluIfadeler == [] && rules.olumsuzIfadeler == [] ==> DuyguAnalizi(ratio, rules, metin) == Notr)
      && ((FuzzyHit(ratio, ws, rules.olumluIfadeler, 70) && !FuzzyHit(ratio, ws, rules.olumsuzIfadeler, 70))
          ==> DuyguAnalizi(ratio, rules, metin) == Olumlu)
      && ((!FuzzyHit(ratio, ws, rules.olumluIfadeler, 70) && FuzzyHit(ratio, ws, rules.olumsuzIfadeler, 70))
          ==> DuyguAnalizi(ratio, rules, metin) == Olumsuz)
  {
  }

  // ---------------------------------------------------------------------
  // anahtar_kelimeleri_cikart

  predicate IsLong(w: string) {
    |w| >= 3
  }

  /** The distinct tokens of at least three characters. */
  ghost function LongWords(ws: seq<string>): set<string> {
    set w | w in ws && IsLong(w)
  }

  /** What `list(set(anahtar_kelimeler))[:5]` may return, whatever order the set
      is enumerated in: distinct long tokens, as many as there are up to five. */
  ghost predicate KeywordChoice(ws: seq<string>, kws: seq<string>) {
    && Distinct(kws)
    && (forall i :: 0 <= i < |kws| ==> kws[i] in ws && IsLong(kws[i]))
    && |kws| == Min(5, |LongWords(ws)|)
  }

  /** The keywords of a token list. The set's enumeration order is unspecified in
      Python (`set`); the model enumerates in order of first occurrence. */
  function Keywords(ws: seq<string>): (kws: seq<string>)
    ensures |kws| <= 5
    ensures KeywordChoice(ws, kws)
  {
    var d := Dedup(Filter(ws, IsLong));
    DistinctCardinality(d);
    assert (set w | w in d) == LongWords(ws);
    d[..Min(5, |d|)]
  }

  /** `anahtar_kelimeleri_cikart`: one enumeration of the distinct tokens of
      the text that have at least three characters, cut to five. */
  function AnahtarKelimeleriCikart(rules: LanguageRules, metin: string): (r: seq<string>)
    ensures KeywordChoice(Kelimeler(rules, metin), r)
  {
    Keywords(Kelimeler(rules, metin))
  }

  /** With at most five distinct long tokens every enumeration order gives the same keywords, as a set. */
  lemma KeywordChoiceSameSet(ws: seq<string>, a: seq<string>, b: seq<string>)
    requires KeywordChoice(ws, a) && KeywordChoice(ws, b)
    requires |LongWords(ws)| <= 5
    ensures forall w :: w in a <==> w in b
  {
    var sa := set w | w in a;
    var sb := set w | w in b;
    DistinctCardinality(a);
    DistinctCardinality(b);
    assert sa <= LongWords(ws) by {
      forall w | w in sa
        ensures w in LongWords(ws)
      {
        var i :| 0 <= i < |a| && a[i] == w;
      }
    }
    assert sb <= LongWords(ws) by {
      forall w | w in sb
        ensures w in LongWords(ws)
      {
        var i :| 0 <= i < |b| && b[i] == w;
      }
    }
    SubsetOfEqualSize(sa, LongWords(ws));
    SubsetOfEqualSize(sb, LongWords(ws));
    forall w
      ensures w in a <==> w in b
    {
      assert w in a <==> w in sa;
      assert w in b <==> w in sb;
    }
  }

  lemma SubsetOfEqualSize<T>(a: set<T>, b: set<T>)
    requires a <= b && |a| == |b|
    ensures a == b
  {
    assert a * b == a && a + b == b && a - b == {};
    assert |b - a| == 0;
  }

  // ---------------------------------------------------------------------
  // benzerlik_hesapla

  /** `benzerlik_hesapla`, in percent (the Python value times 100): a score
      between 0 and 100 that compares the two texts only after normalising
      both. */
  function BenzerlikHesapla(ratio: Ratio, metin1: string, metin2: string): Percent {
    ratio(Normalize(metin1), Normalize(metin2))
  }

  /** Texts that normalise alike (differing only in case, punctuation or
      spacing) score alike, in either position. */
  lemma SimilarityUpToNormalForm(ratio: Ratio, a: string, a': string, b: string, b': string)
    requires Normalize(a) == Normalize(a') && Normalize(b) == Normalize(b')
    ensures BenzerlikHesapla(ratio, a, b) == BenzerlikHesapla(ratio, a', b')
  {
  }

  /** Whitespace around either text does not change the score. */
  lemma SimilarityIgnoresPadding(ratio: Ratio, u: string, a: string, w: string, b: string)
    requires forall k :: 0 <= k < |u| ==> IsSpace(u[k])
    requires forall k :: 0 <= k < |w| ==> IsSpace(w[k])
    ensures BenzerlikHesapla(ratio, u + a + w, b) == BenzerlikHesapla(ratio, a, b)
    ensures BenzerlikHesapla(ratio, b, u + a + w) == BenzerlikHesapla(ratio, b, a)
  {
    NormalizePadding(u, a, w);
  }

  // ---------------------------------------------------------------------
  // konu_belirle

  const Teknoloji := "teknoloji"
  const Egitim := "eğitim"
  const Kisisel := "kişisel"
  const Genel := "genel"

  const TeknolojiKelimeleri: seq<string> := ["python", "kod", "program", "bilgisayar", "yazılım", "uygulama"]
  const EgitimKelimeleri: seq<string> := ["öğren", "ders", "kitap", "okul", "öğretmen", "öğrenci"]
  const KisiselKelimeler: seq<string> := ["ben", "sen", "biz", "hayat", "aile", "arkadaş"]

  /** How many keywords are (exactly) in `list`: the `sum(1 for ...)` scores. */
  function Score(kws: seq<string>, list: seq<string>): (n: nat)
    ensures n > 0 <==> exists i :: 0 <= i < |kws| && kws[i] in list
  {
    var hits := Filter(kws, w => w in list);
    assert hits != [] <==> exists i :: 0 <= i < |kws| && kws[i] in list by {
      if hits != [] {
        assert hits[0] in hits;
      }
      if i :| 0 <= i < |kws| && kws[i] in list {
        assert kws[i] in hits;
      }
    }
    |hits|
  }

  /** The topic of a keyword list: the first of technology, education and personal
      that some keyword belongs to, otherwise general. */
  function TopicOf(kws: seq<string>): (t: string)
    ensures t in {Teknoloji, Egitim, Kisisel, Genel}
    ensures t == Teknoloji <==> (exists i :: 0 <= i < |kws| && kws[i] in TeknolojiKelimeleri)
    ensures t == Egitim <==>
      && (!exists i :: 0 <= i < |kws| && kws[i] in TeknolojiKelimeleri)
      && (exists i :: 0 <= i < |kws| && kws[i] in EgitimKelimeleri)
    ensures t == Kisisel <==>
      && (!exists i :: 0 <= i < |kws| && kws[i] in TeknolojiKelimeleri)
      && (!exists i :: 0 <= i < |kws| && kws[i] in EgitimKelimeleri)
      && (exists i :: 0 <= i < |kws| && kws[i] in KisiselKelimeler)
    ensures t == Genel <==> forall i :: 0 <= i < |kws| ==>
      kws[i] !in TeknolojiKelimeleri && kws[i] !in EgitimKelimeleri && kws[i] !in KisiselKelimeler
  {
    if Score(kws, TeknolojiKelimeleri) > 0 then Teknoloji
    else if Score(kws, EgitimKelimeleri) > 0 then Egitim
    else if Score(kws, KisiselKelimeler) > 0 then Kisisel
    else Genel
  }

  /** `konu_belirle`. */
  function KonuBelirle(rules: LanguageRules, metin: string): string {
    TopicOf(AnahtarKelimeleriCikart(rules, metin))
  }

  /** The topic depends only on which keywords were chosen, not on their order; so
      with at most five distinct long tokens, every enumeration order of the set
      gives the same topic. */
  lemma TopicIndependentOfOrder(ws: seq<string>, a: seq<string>, b: seq<string>)
    requires KeywordChoice(ws, a) && KeywordChoice(ws, b)
    requires |LongWords(ws)| <= 5
    ensures TopicOf(a) == TopicOf(b)
  {
    KeywordChoiceSameSet(ws, a, b);
    SameMembersSameScore(a, b, TeknolojiKelimeleri);
    SameMembersSameScore(a, b, EgitimKelimeleri);
    SameMembersSameScore(a, b, KisiselKelimeler);
  }

  lemma SameMembersSameScore(a: seq<string>, b: seq<string>, list: seq<string>)
    requires forall w :: w in a <==> w in b
    ensures (exists i :: 0 <= i < |a| && a[i] in list) <==> (exists i :: 0 <= i < |b| && b[i] in list)
  {
    if i :| 0 <= i < |a| && a[i] in list {
      assert a[i] in b;
    }
    if i :| 0 <= i < |b| && b[i] in list {
      assert b[i] in a;
    }
  }
}

=== FILE: numerals.dfy ===
/**
  Decimal numerals and the entry ids of `OgrenmeModulu` (ogrenme_modulu.py),
  which are built as `f"{konu}_{n}"` from a topic and the current entry count.
*/
module Numerals {
  import opened Wrappers

  predicate IsDigit(c: char) {
    '0' <= c <= '9'
  }

  function DigitChar(d: nat): (c: char)
    requires d < 10
    ensures IsDigit(c)
  {
    ('0' as int + d) as char
  }

  function DigitValue(c: char): nat {
    if IsDigit(c) then c as int - '0' as int else 0
  }

  /** Python's `str(n)` for a natural number: its decimal digits. */
  function NatToString(n: nat): (s: string)
    ensures s != []
    ensures forall k :: 0 <= k < |s| ==> IsDigit(s[k])
  {
    if n < 10 then [DigitChar(n)] else NatToString(n / 10) + [DigitChar(n % 10)]
  }

  /** The value of a string of decimal digits (Python's `int(s)`). */
  function DigitsValue(s: string): nat {
    if s == [] then 0 else DigitsValue(s[..|s| - 1]) * 10 + DigitValue(s[|s| - 1])
  }

  /** Reading back a printed number gives the number. */
  lemma {:induction false} DigitsValueOfNatToString(n: nat)
    ensures DigitsValue(NatToString(n)) == n
  {
    if n >= 10 {
      var s := NatToString(n);
      DigitsValueOfNatToString(n / 10);
      assert s[..|s| - 1] == NatToString(n / 10);
    }
  }

  /** The id `yeni_bilgi_ogren` gives the entry learned when the store holds `n` entries. */
  function MakeId(konu: string, n: nat): string {
    konu + "_" + NatToString(n)
  }

  /** The text after the last `_`, if the id has one. */
  function AfterLastUnderscore(s: string): Option<string> {
    if s == [] then None
    else if s[|s| - 1] == '_' then Some([])
    else match AfterLastUnderscore(s[..|s| - 1])
      case None => None
      case Some(d) => Some(d + [s[|s| - 1]])
  }

  /** The sequence number an id ends with, if it ends with `_` and decimal digits. */
  function IdNumber(id: string): Option<nat> {
    match AfterLastUnderscore(id)
    case Some(d) =>
      if d != [] && forall k :: 0 <= k < |d| ==> IsDigit(d[k]) then Some(DigitsValue(d)) else None
    case None => None
  }

  lemma {:induction false} AfterLastUnderscoreOf(p: string, d: string)
    requires forall k :: 0 <= k < |d| ==> d[k] != '_'
    ensures AfterLastUnderscore(p + "_" + d) == Some(d)
  {
    if d == [] {
      assert (p + "_" + d)[|p + "_" + d| - 1] == '_';
    } else {
      var s := p + "_" + d;
      var init := d[..|d| - 1];
      assert s[..|s| - 1] == p + "_" + init;
      AfterLastUnderscoreOf(p, init);
      assert d == init + [d[|d| - 1]];
    }
  }

  /** An id made from a topic and a count carries that count, whatever the topic
      (topics may themselves contain `_` or digits). */
  lemma IdNumberOfMakeId(konu: string, n: nat)
    ensures IdNumber(MakeId(konu, n)) == Some(n)
  {
    AfterLastUnderscoreOf(konu, NatToString(n));
    DigitsValueOfNatToString(n);
  }

  /** Ids made from different counts differ, whatever their topics. */
  lemma MakeIdInjective(konu1: string, n1: nat, konu2: string, n2: nat)
    requires n1 != n2
    ensures MakeId(konu1, n1) != MakeId(konu2, n2)
  {
    IdNumberOfMakeId(konu1, n1);
    IdNumberOfMakeId(konu2, n2);
  }
}

=== FILE: ranking.dfy ===
/**
  The ranking step of `benzer_bilgi_bul` (ogrenme_modulu.py): Python's
  `list.sort(key=..., reverse=True)`, a stable sort by descending score.
*/
module Ranking {

  datatype Scored<T> = Scored(item: T, score: int)

  ghost predicate SortedDesc<T>(s: seq<Scored<T>>) {
    forall i, j :: 0 <= i < j < |s| ==> s[i].score >= s[j].score
  }

  /** The elements scoring `v`, in their order in `s`. */
  function WithScore<T>(s: seq<Scored<T>>, v: int): seq<Scored<T>> {
    if s == [] then [] else (if s[0].score == v then [s[0]] else []) + WithScore(s[1..], v)
  }

  lemma {:induction false} WithScoreAppend<T>(a: seq<Scored<T>>, b: seq<Scored<T>>, v: int)
    ensures WithScore(a + b, v) == WithScore(a, v) + WithScore(b, v)
  {
    if a == [] {
      assert a + b == b;
    } else {
      assert (a + b)[0] == a[0];
      assert (a + b)[1..] == a[1..] + b;
      WithScoreAppend(a[1..], b, v);
      assert WithScore(a + b, v) == (if a[0].score == v then [a[0]] else []) + WithScore(a[1..] + b, v);
    }
  }

  lemma {:induction false} WithScoreNone<T>(s: seq<Scored<T>>, v: int)
    requires forall i :: 0 <= i < |s| ==> s[i].score != v
    ensures WithScore(s, v) == []
  {
    if s != [] {
      WithScoreNone(s[1..], v);
    }
  }

  lemma {:induction false} WithScoreMembers<T>(s: seq<Scored<T>>, v: int, x: Scored<T>)
    ensures x in WithScore(s, v) <==> x in s && x.score == v
  {
    if s != [] {
      WithScoreMembers(s[1..], v, x);
      assert s == [s[0]] + s[1..];
    }
  }

  /** A non-empty sequence heads the elements of its own first score. */
  lemma WithScoreHeadSelf<T>(s: seq<Scored<T>>)
    requires s != []
    ensures WithScore(s, s[0].score) != [] && WithScore(s, s[0].score)[0] == s[0]
  {
  }

  /** When position `p` scores `v`, the first element scoring `v` sits at or
      before `p`. */
  lemma {:induction false} WithScoreHeadEarly<T>(s: seq<Scored<T>>, v: int, p: nat) returns (q: nat)
    requires p < |s| && s[p].score == v
    ensures q <= p && WithScore(s, v) != [] && WithScore(s, v)[0] == s[q]
  {
    if s[0].score == v {
      q := 0;
    } else {
      var q' := WithScoreHeadEarly(s[1..], v, p - 1);
      q := q' + 1;
    }
  }

  /** Inserts `x` after every element scoring at least as much, so that among
      equal scores the later insertion comes last. */
  function Insert<T>(x: Scored<T>, s: seq<Scored<T>>): (r: seq<Scored<T>>)
    ensures |r| == |s| + 1
  {
    if s == [] then [x]
    else if s[0].score >= x.score then [s[0]] + Insert(x, s[1..])
    else [x] + s
  }

  lemma {:induction false} InsertBounded<T>(x: Scored<T>, s: seq<Scored<T>>, bound: int)
    requires x.score <= bound
    requires forall i :: 0 <= i < |s| ==> s[i].score <= bound
    ensures forall j :: 0 <= j < |Insert(x, s)| ==> Insert(x, s)[j].score <= bound
  {
    if s != [] && s[0].score >= x.score {
      InsertBounded(x, s[1..], bound);
      assert Insert(x, s) == [s[0]] + Insert(x, s[1..]);
    }
  }

  lemma {:induction false} InsertSorted<T>(x: Scored<T>, s: seq<Scored<T>>)
    requires SortedDesc(s)
    ensures SortedDesc(Insert(x, s))
  {
    if s != [] && s[0].score >= x.score {
      var t := Insert(x, s[1..]);
      InsertSorted(x, s[1..]);
      InsertBounded(x, s[1..], s[0].score);
      assert Insert(x, s) == [s[0]] + t;
    }
  }

  lemma {:induction false} InsertPermutes<T>(x: Scored<T>, s: seq<Scored<T>>)
    ensures multiset(Insert(x, s)) == multiset(s) + multiset{x}
  {
    if s != [] && s[0].score >= x.score {
      InsertPermutes(x, s[1..]);
      assert Insert(x, s) == [s[0]] + Insert(x, s[1..]);
      assert s == [s[0]] + s[1..];
    }
  }

  lemma {:induction false} InsertStable<T>(x: Scored<T>, s: seq<Scored<T>>, v: int)
    requires SortedDesc(s)
    ensures WithScore(Insert(x, s), v) == WithScore(s, v) + (if v == x.score then [x] else [])
  {
    var r := Insert(x, s);
    if s == [] {
    } else if s[0].score >= x.score {
      InsertStable(x, s[1..], v);
      assert r[0] == s[0] && r[1..] == Insert(x, s[1..]);
    } else {
      assert r[0] == x && r[1..] == s;
      if v == x.score {
        WithScoreNone(s, v);
      }
    }
  }

  /** Insertion sort by descending score; the last element is inserted last. */
  function SortDesc<T>(s: seq<Scored<T>>): (r: seq<Scored<T>>)
    ensures |r| == |s|
  {
    if s == [] then [] else Insert(s[|s| - 1], SortDesc(s[..|s| - 1]))
  }

  /** The sort orders by descending score, is a permutation, and is stable: the
      elements of each score keep their relative order. */
  lemma {:induction false} SortDescCorrect<T>(s: seq<Scored<T>>)
    ensures SortedDesc(SortDesc(s))
    ensures multiset(SortDesc(s)) == multiset(s)
    ensures forall v :: WithScore(SortDesc(s), v) == WithScore(s, v)
  {
    if s != [] {
      var init := s[..|s| - 1];
      var last := s[|s| - 1];
      SortDescCorrect(init);
      InsertSorted(last, SortDesc(init));
      InsertPermutes(last, SortDesc(init));
      assert s == init + [last];
      forall v
        ensures WithScore(SortDesc(s), v) == WithScore(s, v)
      {
        InsertStable(last, SortDesc(init), v);
        WithScoreAppend(init, [last], v);
      }
    }
  }

  /** A stable descending sort is unique: two sequences sorted by descending
      score that agree, score by score, on their elements and their order are equal. */
  lemma {:induction false} SortedStableUnique<T>(a: seq<Scored<T>>, b: seq<Scored<T>>)
    requires SortedDesc(a) && SortedDesc(b)
    requires forall v :: WithScore(a, v) == WithScore(b, v)
    ensures a == b
    decreases |a|
  {
    if a != [] {
      var m := a[0].score;
      assert WithScore(a, m) != [];
      assert b != [];
      var m' := b[0].score;
      assert WithScore(b, m') != [];
      WithScoreMembers(a, m', WithScore(a, m')[0]);
      assert WithScore(a, m')[0] in WithScore(a, m');
      WithScoreMembers(b, m, WithScore(b, m)[0]);
      assert WithScore(b, m)[0] in WithScore(b, m);
      assert m == m';
      assert WithScore(a, m)[0] == a[0];
      assert WithScore(b, m)[0] == b[0];
      assert a[0] == b[0];
      forall v
        ensures WithScore(a[1..], v) == WithScore(b[1..], v)
      {
        assert WithScore(a, v) == WithScore(b, v);
        assert WithScore(a, v) == (if a[0].score == v then [a[0]] else []) + WithScore(a[1..], v);
        assert WithScore(b, v) == (if b[0].score == v then [b[0]] else []) + WithScore(b[1..], v);
        if a[0].score == v {
          assert WithScore(a[1..], v) == WithScore(a, v)[1..];
          assert WithScore(b[1..], v) == WithScore(b, v)[1..];
        } else {
          assert WithScore(a[1..], v) == WithScore(a, v);
          assert WithScore(b[1..], v) == WithScore(b, v);
        }
      }
      SortedStableUnique(a[1..], b[1..]);
      assert a == [a[0]] + a[1..] && b == [b[0]] + b[1..];
    }
  }

  ghost predicate IsPrefix<T>(a: seq<T>, b: seq<T>) {
    |a| <= |b| && a == b[..|a|]
  }

  /** A prefix of a descending sequence holds its best: whatever is left out
      scores no higher than anything kept. */
  lemma PrefixKeepsBest<T>(s: seq<Scored<T>>, n: nat)
    requires SortedDesc(s) && n <= |s|
    ensures multiset(s[..n]) <= multiset(s)
    ensures forall c, i :: c in multiset(s) - multiset(s[..n]) && 0 <= i < n ==> c.score <= s[i].score
  {
    assert s == s[..n] + s[n..];
    assert multiset(s) - multiset(s[..n]) == multiset(s[n..]);
    forall c, i | c in multiset(s) - multiset(s[..n]) && 0 <= i < n
      ensures c.score <= s[i].score
    {
      assert c in s[n..];
      var k :| n <= k < |s| && s[k] == c;
    }
  }

  /** Keeping a prefix of a sequence keeps a prefix of each score's elements. */
  lemma {:induction false} WithScorePrefix<T>(s: seq<Scored<T>>, n: nat, v: int)
    requires n <= |s|
    ensures IsPrefix(WithScore(s[..n], v), WithScore(s, v))
  {
    assert s == s[..n] + s[n..];
    WithScoreAppend(s[..n], s[n..], v);
  }

  /** A prefix of a stable descending arrangement `s` of `cs` is descending,
      drawn from `cs`, keeps a prefix of each score's elements of `cs`, and is
      all of `cs` when it is all of `s`. */
  lemma SortedPrefix<T>(cs: seq<Scored<T>>, s: seq<Scored<T>>, n: nat)
    requires n <= |s| && SortedDesc(s) && multiset(s) == multiset(cs)
    requires forall v :: WithScore(s, v) == WithScore(cs, v)
    ensures forall i :: 0 <= i < n ==> s[..n][i] in cs
    ensures SortedDesc(s[..n])
    ensures forall v :: IsPrefix(WithScore(s[..n], v), WithScore(cs, v))
    ensures n == |s| ==> multiset(s[..n]) == multiset(cs)
  {
    forall i | 0 <= i < n
      ensures s[..n][i] in cs
    {
      assert s[i] in multiset(s);
    }
    forall v
      ensures IsPrefix(WithScore(s[..n], v), WithScore(cs, v))
    {
      WithScorePrefix(s, n, v);
    }
    assert n == |s| ==> s[..n] == s;
  }

  /** The head of a descending sequence scores at least as much as any element. */
  lemma SortedHeadMax<T>(s: seq<Scored<T>>, x: Scored<T>)
    requires SortedDesc(s) && x in s
    ensures s[0].score >= x.score
  {
    var i :| 0 <= i < |s| && s[i] == x;
    if i > 0 {
      assert s[0].score >= s[i].score;
    }
  }
}

=== FILE: seqs.dfy ===
/** Sequence helpers shared by the text, ranking and store modules. */
module Seqs {

  function Min(a: int, b: int): int {
    if a <= b then a else b
  }

  /** Python's list comprehension `[x for x in s if p(x)]`. */
  function Filter<T(!new)>(s: seq<T>, p: T -> bool): (r: seq<T>)
    ensures |r| <= |s|
    ensures forall x :: x in r <==> x in s && p(x)
  {
    if s == [] then [] else (if p(s[0]) then [s[0]] else []) + Filter(s[1..], p)
  }

  /** Filtering distributes over concatenation, so it keeps the relative order of what it keeps. */
  lemma {:induction false} FilterAppend<T(!new)>(a: seq<T>, b: seq<T>, p: T -> bool)
    ensures Filter(a + b, p) == Filter(a, p) + Filter(b, p)
  {
    if a == [] {
      assert a + b == b;
    } else {
      assert (a + b)[1..] == a[1..] + b;
      FilterAppend(a[1..], b, p);
    }
  }

  /** A filter that keeps every element is the identity. */
  lemma {:induction false} FilterAll<T(!new)>(s: seq<T>, p: T -> bool)
    requires forall i :: 0 <= i < |s| ==> p(s[i])
    ensures Filter(s, p) == s
  {
    if s != [] {
      FilterAll(s[1..], p);
      assert s == [s[0]] + s[1..];
    }
  }

  /** `f` lists positions below `n` in strictly increasing order. */
  ghost predicate Ascending(f: seq<nat>, n: nat) {
    && (forall i :: 0 <= i < |f| ==> f[i] < n)
    && (forall i, j :: 0 <= i < j < |f| ==> f[i] < f[j])
  }

  /** Ascending positions keep the order of their indices. */
  lemma AscendingMonotone(f: seq<nat>, n: nat, q: nat, p: nat)
    requires Ascending(f, n) && q <= p < |f|
    ensures f[q] <= f[p]
  {
    if q < p {
      assert f[q] < f[p];
    }
  }

  /** What a filter keeps, position by position: element `i` of the result is
      element `f[i]` of `s`, the positions ascend (order and repetitions are
      kept), and every position whose element passes is among them. */
  lemma {:induction false} FilterPositions<T(!new)>(s: seq<T>, p: T -> bool) returns (f: seq<nat>)
    ensures |f| == |Filter(s, p)| && Ascending(f, |s|)
    ensures forall i :: 0 <= i < |f| ==> Filter(s, p)[i] == s[f[i]]
    ensures forall k :: 0 <= k < |s| && p(s[k]) ==> k in f
  {
    if s == [] {
      f := [];
    } else {
      var g := FilterPositions(s[1..], p);
      var h := Shifted(s, p, g);
      if p(s[0]) {
        f := KeepHead(s, p, h);
      } else {
        f := SkipHead(s, p, h);
      }
    }
  }

  /** The induction step when the first element fails the filter. */
  lemma SkipHead<T(!new)>(s: seq<T>, p: T -> bool, h: seq<nat>) returns (f: seq<nat>)
    requires s != [] && !p(s[0])
    requires |h| == |Filter(s[1..], p)| && Ascending(h, |s|)
    requires forall i :: 0 <= i < |h| ==> 1 <= h[i] && Filter(s[1..], p)[i] == s[h[i]]
    requires forall k :: 1 <= k < |s| && p(s[k]) ==> k in h
    ensures |f| == |Filter(s, p)| && Ascending(f, |s|)
    ensures forall i :: 0 <= i < |f| ==> Filter(s, p)[i] == s[f[i]]
    ensures forall k :: 0 <= k < |s| && p(s[k]) ==> k in f
  {
    assert Filter(s, p) == Filter(s[1..], p);
    f := h;
  }

  /** The induction step when the first element passes the filter. */
  lemma KeepHead<T(!new)>(s: seq<T>, p: T -> bool, h: seq<nat>) returns (f: seq<nat>)
    requires s != [] && p(s[0])
    requires |h| == |Filter(s[1..], p)| && Ascending(h, |s|)
    requires forall i :: 0 <= i < |h| ==> 1 <= h[i] && Filter(s[1..], p)[i] == s[h[i]]
    requires forall k :: 1 <= k < |s| && p(s[k]) ==> k in h
    ensures |f| == |Filter(s, p)| && Ascending(f, |s|)
    ensures forall i :: 0 <= i < |f| ==> Filter(s, p)[i] == s[f[i]]
    ensures forall k :: 0 <= k < |s| && p(s[k]) ==> k in f
  {
    assert Filter(s, p) == [s[0]] + Filter(s[1..], p);
    f := [0] + h;
    ConsAscending(h, |s|);
    forall i | 0 <= i < |f|
      ensures Filter(s, p)[i] == s[f[i]]
    {
      if i > 0 {
        assert f[i] == h[i - 1];
      }
    }
    forall k | 0 <= k < |s| && p(s[k])
      ensures k in f
    {
      if k > 0 {
        assert k in h;
      }
    }
  }

  /** Position 0 can go in front of ascending positions that are all past it. */
  lemma ConsAscending(h: seq<nat>, n: nat)
    requires 0 < n && Ascending(h, n) && forall i :: 0 <= i < |h| ==> 1 <= h[i]
    ensures Ascending([0] + h, n)
  {
    var f := [0] + h;
    forall i, j | 0 <= i < j < |f|
      ensures f[i] < f[j]
    {
      assert f[j] == h[j - 1];
    }
  }

  /** Positions in `s[1..]`, moved one place right to be positions in `s`. */
  lemma Shifted<T>(s: seq<T>, p: T -> bool, g: seq<nat>) returns (h: seq<nat>)
    requires s != [] && Ascending(g, |s| - 1)
    requires forall k :: 0 <= k < |s| - 1 && p(s[1..][k]) ==> k in g
    ensures |h| == |g| && Ascending(h, |s|)
    ensures forall i :: 0 <= i < |h| ==> 1 <= h[i] && s[h[i]] == s[1..][g[i]]
    ensures forall k :: 1 <= k < |s| && p(s[k]) ==> k in h
  {
    h := seq(|g|, i requires 0 <= i < |g| => g[i] + 1);
    forall k | 1 <= k < |s| && p(s[k])
      ensures k in h
    {
      assert s[1..][k - 1] == s[k];
      var i :| 0 <= i < |g| && g[i] == k - 1;
      assert h[i] == k;
    }
  }

  /** Concatenation of a sequence of strings (or of any sequences). */
  function Concat<T>(ss: seq<seq<T>>): seq<T> {
    if ss == [] then [] else ss[0] + Concat(ss[1..])
  }

  ghost predicate Distinct<T>(s: seq<T>) {
    forall i, j :: 0 <= i < j < |s| ==> s[i] != s[j]
  }

  /** Duplicates removed, each element kept at its first occurrence. */
  function Dedup<T(==,!new)>(s: seq<T>): (r: seq<T>)
    ensures Distinct(r)
    ensures forall x :: x in r <==> x in s
  {
    if s == [] then []
    else
      var d := Dedup(s[..|s| - 1]);
      var last := s[|s| - 1];
      assert forall x :: x in s <==> x in s[..|s| - 1] || x == last by {
        assert s == s[..|s| - 1] + [last];
      }
      if last in d then d else d + [last]
  }

  /** A duplicate-free sequence has as many elements as the set of its elements. */
  lemma {:induction false} DistinctCardinality<T>(s: seq<T>)
    requires Distinct(s)
    ensures |set x | x in s| == |s|
  {
    if s != [] {
      var t := s[1..];
      DistinctCardinality(t);
      assert (set x | x in s) == (set x | x in t) + {s[0]};
      assert s[0] !in t;
    }
  }

  /** A set that `f` maps one-to-one onto `img` has as many elements as `img`. */
  lemma {:induction false} InjectiveImage<A, B>(s: set<A>, img: set<B>, f: A -> B)
    requires forall x :: x in s ==> f(x) in img
    requires forall y :: y in img ==> exists x :: x in s && f(x) == y
    requires forall x, y :: x in s && y in s && f(x) == f(y) ==> x == y
    ensures |img| == |s|
    decreases |s|
  {
    if s != {} {
      var x :| x in s;
      InjectiveImage(s - {x}, img - {f(x)}, f);
    }
  }

  /** Python's slice `s[:k]`: a negative `k` counts from the end. */
  function Prefix<T>(s: seq<T>, k: int): (r: seq<T>)
    ensures k >= 0 ==> |r| == Min(k, |s|)
    ensures k < 0 ==> |r| == if |s| + k >= 0 then |s| + k else 0
    ensures r == s[..|r|]
  {
    if k >= 0 then s[..Min(k, |s|)]
    else if |s| + k >= 0 then s[..|s| + k]
    else []
  }
}

=== FILE: text.dfy ===
/**
  Text normalisation and tokenisation of `TurkceDilIsleme` (dil_isleme.py):
  `temizle_metin` and `kelimelere_ayir`, over Python's notions of whitespace,
  `string.punctuation` and `str.lower`.
*/
module Text {
  import opened Seqs

  /** Python's `str.isspace`, which is also what `\s` in a `re` pattern,
      `str.strip()` and `str.split()` treat as whitespace. */
  predicate IsSpace(c: char) {
    || ('\t' <= c <= '\r')
    || ('\U{1C}' <= c <= ' ')
    || c == '\U{85}' || c == '\U{A0}' || c == '\U{1680}'
    || ('\U{2000}' <= c <= '\U{200A}')
    || c == '\U{2028}' || c == '\U{2029}' || c == '\U{202F}' || c == '\U{205F}' || c == '\U{3000}'
  }

  predicate IsWordChar(c: char) {
    !IsSpace(c)
  }

  /** Python's `string.punctuation`: the 32 ASCII punctuation characters
      ``!"#$%&'()*+,-./:;<=>?@[\]^_`{|}~``, i.e. the four ASCII ranges below. */
  predicate IsPunctuation(c: char) {
    ('!' <= c <= '/') || (':' <= c <= '@') || ('[' <= c <= '`') || ('{' <= c <= '~')
  }

  /** Deleted by normalisation: every punctuation character except `?` and `!`. */
  predicate IsDropped(c: char) {
    IsPunctuation(c) && c != '?' && c != '!'
  }

  predicate IsKept(c: char) {
    !IsDropped(c)
  }

  /** A non-empty run of non-whitespace characters: what `str.split()` yields. */
  ghost predicate IsWord(w: string) {
    w != [] && forall k :: 0 <= k < |w| ==> IsWordChar(w[k])
  }

  /** The characters of `s` that are not whitespace, in order. */
  function NonSpace(s: string): string {
    if s == [] then [] else (if IsSpace(s[0]) then [] else [s[0]]) + NonSpace(s[1..])
  }

  lemma {:induction false} NonSpaceAppend(a: string, b: string)
    ensures NonSpace(a + b) == NonSpace(a) + NonSpace(b)
  {
    if a == [] {
      assert a + b == b;
    } else {
      assert (a + b)[0] == a[0];
      assert (a + b)[1..] == a[1..] + b;
      NonSpaceAppend(a[1..], b);
    }
  }

  lemma {:induction false} NonSpaceMembers(s: string, c: char)
    requires IsWordChar(c)
    ensures c in NonSpace(s) <==> c in s
  {
    if s != [] {
      NonSpaceMembers(s[1..], c);
      assert s == [s[0]] + s[1..];
    }
  }

  lemma {:induction false} NonSpaceOfSpaces(s: string)
    requires forall k :: 0 <= k < |s| ==> IsSpace(s[k])
    ensures NonSpace(s) == []
  {
    if s != [] {
      NonSpaceOfSpaces(s[1..]);
    }
  }

  // ---------------------------------------------------------------------
  // str.strip()

  function TrimLeft(s: string): (r: string)
    ensures |r| <= |s|
    ensures r == s[|s| - |r|..]
    ensures r == [] || IsWordChar(r[0])
    ensures forall k :: 0 <= k < |s| - |r| ==> IsSpace(s[k])
  {
    if s != [] && IsSpace(s[0]) then TrimLeft(s[1..]) else s
  }

  function TrimRight(s: string): (r: string)
    ensures |r| <= |s|
    ensures r == s[..|r|]
    ensures r == [] || IsWordChar(r[|r| - 1])
    ensures forall k :: |r| <= k < |s| ==> IsSpace(s[k])
  {
    if s != [] && IsSpace(s[|s| - 1]) then TrimRight(s[..|s| - 1]) else s
  }

  /** `s.strip()`: leading and trailing whitespace removed. */
  function Strip(s: string): (r: string)
    ensures r == [] || (IsWordChar(r[0]) && IsWordChar(r[|r| - 1]))
  {
    TrimRight(TrimLeft(s))
  }

  lemma {:induction false} NonSpaceOfTrimRight(s: string)
    ensures NonSpace(TrimRight(s)) == NonSpace(s)
  {
    if s != [] && IsSpace(s[|s| - 1]) {
      var init := s[..|s| - 1];
      NonSpaceOfTrimRight(init);
      assert s == init + [s[|s| - 1]];
      NonSpaceAppend(init, [s[|s| - 1]]);
    }
  }

  /** Stripping removes whitespace only. */
  lemma StripNonSpace(s: string)
    ensures NonSpace(Strip(s)) == NonSpace(s)
  {
    NonSpaceOfTrimLeft(s);
    NonSpaceOfTrimRight(TrimLeft(s));
  }

  lemma {:induction false} NonSpaceEmpty(s: string)
    requires NonSpace(s) == []
    ensures forall k :: 0 <= k < |s| ==> IsSpace(s[k])
  {
    if s != [] {
      NonSpaceEmpty(s[1..]);
      assert forall k :: 1 <= k < |s| ==> s[k] == s[1..][k - 1];
    }
  }

  /** `not s.strip()`: a text strips to nothing exactly when it is all whitespace. */
  lemma StripBlank(s: string)
    ensures Strip(s) == [] <==> forall k :: 0 <= k < |s| ==> IsSpace(s[k])
  {
    StripNonSpace(s);
    if Strip(s) == [] {
      NonSpaceEmpty(s);
    } else {
      assert NonSpace(Strip(s)) != [];
      if forall k :: 0 <= k < |s| ==> IsSpace(s[k]) {
        NonSpaceOfSpaces(s);
      }
    }
  }

  lemma {:induction false} TrimLeftSpaces(u: string, x: string)
    requires forall k :: 0 <= k < |u| ==> IsSpace(u[k])
    ensures TrimLeft(u + x) == TrimLeft(x)
  {
    if u != [] {
      assert (u + x)[0] == u[0];
      assert (u + x)[1..] == u[1..] + x;
      TrimLeftSpaces(u[1..], x);
    } else {
      assert u + x == x;
    }
  }

  lemma {:induction false} TrimRightSpaces(x: string, w: string)
    requires forall k :: 0 <= k < |w| ==> IsSpace(w[k])
    ensures TrimRight(x + w) == TrimRight(x)
    decreases |w|
  {
    if w != [] {
      var w' := w[..|w| - 1];
      assert (x + w)[|x + w| - 1] == w[|w| - 1];
      assert (x + w)[..|x + w| - 1] == x + w';
      TrimRightSpaces(x, w');
    } else {
      assert x + w == x;
    }
  }

  lemma {:induction false} TrimLeftAppend(a: string, w: string)
    ensures TrimLeft(a) != [] ==> TrimLeft(a + w) == TrimLeft(a) + w
    ensures TrimLeft(a) == [] ==> TrimLeft(a + w) == TrimLeft(w)
  {
    if a == [] {
      assert a + w == w;
    } else {
      assert (a + w)[0] == a[0];
      if IsSpace(a[0]) {
        assert (a + w)[1..] == a[1..] + w;
        TrimLeftAppend(a[1..], w);
      }
    }
  }

  /** `s.strip()` ignores whitespace added at either end. */
  lemma StripPadding(u: string, a: string, w: string)
    requires forall k :: 0 <= k < |u| ==> IsSpace(u[k])
    requires forall k :: 0 <= k < |w| ==> IsSpace(w[k])
    ensures Strip(u + a + w) == Strip(a)
  {
    assert u + a + w == u + (a + w);
    TrimLeftSpaces(u, a + w);
    TrimLeftAppend(a, w);
    if TrimLeft(a) != [] {
      TrimRightSpaces(TrimLeft(a), w);
    } else {
      TrimLeftSpaces(w, []);
      assert w + [] == w;
    }
  }

  // ---------------------------------------------------------------------
  // re.sub(r'\s+', ' ', s)

  /** Collapsing, where `inRun` says the previous character was whitespace. */
  function CollapseFrom(s: string, inRun: bool): (r: string)
    ensures NonSpace(r) == NonSpace(s)
    ensures forall k :: 0 <= k < |r| && IsSpace(r[k]) ==> r[k] == ' '
    ensures forall k :: 0 <= k < |r| - 1 ==> IsWordChar(r[k]) || IsWordChar(r[k + 1])
    ensures inRun ==> r == [] || IsWordChar(r[0])
  {
    if s == [] then []
    else
      var rest := CollapseFrom(s[1..], IsSpace(s[0]));
      var head := if IsSpace(s[0]) then (if inRun then [] else [' ']) else [s[0]];
      assert s == [s[0]] + s[1..];
      NonSpaceAppend([s[0]], s[1..]);
      NonSpaceAppend(head, rest);
      head + rest
  }

  /** Every maximal whitespace run becomes one ordinary space; nothing else changes. */
  function CollapseSpaces(s: string): (r: string)
    ensures NonSpace(r) == NonSpace(s)
    ensures forall k :: 0 <= k < |r| && IsSpace(r[k]) ==> r[k] == ' '
    ensures forall k :: 0 <= k < |r| - 1 ==> IsWordChar(r[k]) || IsWordChar(r[k + 1])
  {
    CollapseFrom(s, false)
  }

  // ---------------------------------------------------------------------
  // s.translate(...) deleting string.punctuation minus '?' and '!'

  function DropPunctuation(s: string): (r: string)
    ensures forall c :: c in r <==> c in s && IsKept(c)
  {
    Filter(s, IsKept)
  }

  /** Punctuation is deleted character by character: a text's parts are
      cleaned separately and stay in order, and one character survives exactly
      when it is kept. */
  lemma DropPunctuationPointwise(a: string, b: string, c: char)
    ensures DropPunctuation(a + b) == DropPunctuation(a) + DropPunctuation(b)
    ensures DropPunctuation([c]) == if IsKept(c) then [c] else []
  {
    FilterAppend(a, b, IsKept);
    assert [c][1..] == [];
  }

  // ---------------------------------------------------------------------
  // str.lower()

  /** Python's `str.lower` on one character, for ASCII, Latin-1 and the
      Turkish capitals. `İ` lowers to two code points, `i` and a combining dot. */
  function LowerChar(c: char): (r: string)
    ensures 1 <= |r| <= 2
    ensures IsCaseless(c) ==> r == [c]
    ensures !IsCaseless(c) ==> forall k :: 0 <= k < |r| ==> !IsCaseless(r[k])
  {
    if 'A' <= c <= 'Z' || ('\U{C0}' <= c <= '\U{DE}' && c != '\U{D7}') then [(c as int + 32) as char]
    else if c == '\U{11E}' || c == '\U{15E}' then [(c as int + 1) as char]  // Ğ, Ş
    else if c == '\U{130}' then "i\U{0307}"                                  // İ
    else [c]
  }

  function Lower(s: string): string {
    if s == [] then [] else LowerChar(s[0]) + Lower(s[1..])
  }

  /** A character lowering neither produces nor consumes. */
  predicate IsCaseless(c: char) {
    IsDropped(c) || c == '?' || c == '!'
  }

  lemma {:induction false} LowerKeepsCaseless(s: string, m: char)
    requires IsCaseless(m)
    ensures m in Lower(s) <==> m in s
  {
    if s != [] {
      LowerKeepsCaseless(s[1..], m);
      assert m in LowerChar(s[0]) <==> m == s[0];
      assert s == [s[0]] + s[1..];
    }
  }

  // ---------------------------------------------------------------------
  // temizle_metin and kelimelere_ayir

  /** `temizle_metin`: strip, collapse whitespace, delete punctuation other than `?`/`!`, lowercase. */
  function Normalize(s: string): string {
    if s == [] then [] else Lower(DropPunctuation(CollapseSpaces(Strip(s))))
  }

  /** The early return for empty text agrees with the general path. */
  lemma NormalizeViaStrip(s: string)
    ensures Normalize(s) == Lower(DropPunctuation(CollapseSpaces(Strip(s))))
  {
  }

  /** Whitespace added at either end does not change the normal form. */
  lemma NormalizePadding(u: string, a: string, w: string)
    requires forall k :: 0 <= k < |u| ==> IsSpace(u[k])
    requires forall k :: 0 <= k < |w| ==> IsSpace(w[k])
    ensures Normalize(u + a + w) == Normalize(a)
  {
    NormalizeViaStrip(u + a + w);
    NormalizeViaStrip(a);
    StripPadding(u, a, w);
  }

  /** Normalisation leaves no punctuation but `?` and `!`, and never adds or removes
      either of those two. */
  lemma NormalizeMarks(s: string)
    ensures Normalize("") == ""
    ensures forall c :: c in Normalize(s) ==> !IsDropped(c)
    ensures '?' in Normalize(s) <==> '?' in s
    ensures '!' in Normalize(s) <==> '!' in s
  {
    if s != [] {
      var d := DropPunctuation(CollapseSpaces(Strip(s)));
      forall c | IsDropped(c)
        ensures c !in Normalize(s)
      {
        LowerKeepsCaseless(d, c);
      }
      forall m | m == '?' || m == '!'
        ensures m in Normalize(s) <==> m in s
      {
        LowerKeepsCaseless(d, m);
        NonSpaceMembers(s, m);
        StripNonSpace(s);
        NonSpaceMembers(Strip(s), m);
        NonSpaceMembers(CollapseSpaces(Strip(s)), m);
      }
    }
  }

  /** The longest whitespace-free prefix of `s`. */
  function Word(s: string): (w: string)
    ensures |w| <= |s|
    ensures s != [] && IsWordChar(s[0]) ==> w != []
    ensures w == s[..|w|]
    ensures forall k :: 0 <= k < |w| ==> IsWordChar(w[k])
    ensures |w| < |s| ==> IsSpace(s[|w|])
  {
    if s == [] || IsSpace(s[0]) then [] else [s[0]] + Word(s[1..])
  }

  /** Python's `str.split()` with no separator: the maximal whitespace-free runs. */
  function Split(s: string): seq<string>
    decreases |s|
  {
    var t := TrimLeft(s);
    if t == [] then [] else
      var w := Word(t);
      [w] + Split(t[|w|..])
  }

  /** Every word of a split is non-empty and free of whitespace. */
  lemma {:induction false} SplitWords(s: string)
    ensures forall i | 0 <= i < |Split(s)| :: IsWord(Split(s)[i])
    decreases |s|
  {
    var t := TrimLeft(s);
    if t != [] {
      var w := Word(t);
      assert IsWord(w);
      var rest := Split(t[|w|..]);
      SplitWords(t[|w|..]);
      var ws := Split(s);
      assert ws == [w] + rest;
      forall i | 0 <= i < |ws|
        ensures IsWord(ws[i])
      {
        if i == 0 {
          assert ws[0] == w;
        } else {
          assert ws[i] == rest[i - 1];
        }
      }
    }
  }

  lemma {:induction false} NonSpaceOfTrimLeft(s: string)
    ensures NonSpace(TrimLeft(s)) == NonSpace(s)
  {
    if s != [] && IsSpace(s[0]) {
      NonSpaceOfTrimLeft(s[1..]);
    }
  }

  /** The first word of a text is the first part of its non-whitespace content. */
  lemma {:induction false} NonSpaceOfWord(t: string)
    ensures NonSpace(t) == Word(t) + NonSpace(t[|Word(t)|..])
  {
    if t == [] || IsSpace(t[0]) {
      assert Word(t) == [];
      assert t[0..] == t;
    } else {
      var w' := Word(t[1..]);
      NonSpaceOfWord(t[1..]);
      assert Word(t) == [t[0]] + w';
      assert NonSpace(t) == [t[0]] + NonSpace(t[1..]);
      assert t[1..][|w'|..] == t[|w'| + 1..];
    }
  }

  /** Splitting loses only whitespace: the words, concatenated, are the text's
      non-whitespace characters in order. */
  lemma {:induction false} SplitContent(s: string)
    ensures Concat(Split(s)) == NonSpace(s)
    decreases |s|
  {
    var t := TrimLeft(s);
    NonSpaceOfTrimLeft(s);
    if t == [] {
    } else {
      var w := Word(t);
      var u := t[|w|..];
      SplitContent(u);
      NonSpaceOfWord(t);
      var ws := Split(s);
      assert ws == [w] + Split(u);
      assert ws[0] == w && ws[1..] == Split(u);
    }
  }

  /** `" ".join(ws)`. */
  function JoinSpace(ws: seq<string>): string {
    if ws == [] then [] else if |ws| == 1 then ws[0] else ws[0] + " " + JoinSpace(ws[1..])
  }

  lemma JoinSpaceCons(w: string, ws: seq<string>)
    requires ws != []
    ensures JoinSpace([w] + ws) == w + " " + JoinSpace(ws)
  {
    assert ([w] + ws)[1..] == ws;
  }

  /** Text as the strip and collapse steps of `temizle_metin` leave it: no
      whitespace at either end, and whitespace only as single plain spaces. */
  ghost predicate Collapsed(t: string) {
    && (t == [] || (IsWordChar(t[0]) && IsWordChar(t[|t| - 1])))
    && (forall k :: 0 <= k < |t| && IsSpace(t[k]) ==> t[k] == ' ')
    && (forall k :: 0 <= k < |t| - 1 ==> IsWordChar(t[k]) || IsWordChar(t[k + 1]))
  }

  /** On collapsed text `split()` cuts exactly at the spaces: the words joined
      by single spaces give the text back, so each word is a maximal run of
      non-whitespace and consecutive words are one space apart. */
  lemma {:induction false} SplitJoin(t: string)
    requires Collapsed(t)
    ensures JoinSpace(Split(t)) == t
    decreases |t|
  {
    if t != [] {
      var w := Word(t);
      if |w| == |t| {
        SplitWhole(t);
      } else {
        var t' := t[|w| + 1..];
        SplitAtSpace(t);
        SplitJoin(t');
        JoinSpaceCons(w, Split(t'));
      }
    }
  }

  /** Collapsed text without a space is one word. */
  lemma SplitWhole(t: string)
    requires Collapsed(t) && t != [] && |Word(t)| == |t|
    ensures Split(t) == [t]
  {
    SplitFirstWord(t);
    assert Word(t) == t;
    assert t[|t|..] == [];
  }

  /** A text starting with a word character splits into its first word and
      the words of the rest. */
  lemma SplitFirstWord(t: string)
    requires t != [] && IsWordChar(t[0])
    ensures Split(t) == [Word(t)] + Split(t[|Word(t)|..])
  {
    assert TrimLeft(t) == t;
  }

  /** Collapsed text with a space splits into its first word and the words of
      the collapsed text after that space. */
  lemma SplitAtSpace(t: string)
    requires Collapsed(t) && t != [] && |Word(t)| < |t|
    ensures var w := Word(t);
            var t' := t[|w| + 1..];
            && Collapsed(t') && t' != []
            && t == w + " " + t'
            && Split(t) == [w] + Split(t')
            && Split(t') != []
  {
    var w := Word(t);
    var n := |w|;
    SplitFirstWord(t);
    assert t[n] == ' ';
    CollapsedSuffix(t, n + 1);
    CutAtSpace(t, n);
    SplitSpaceCons(' ', t[n + 1..]);
    SplitFirstWord(t[n + 1..]);
  }

  /** Cutting a text at one of its spaces. */
  lemma CutAtSpace(t: string, n: nat)
    requires n < |t| && t[n] == ' '
    ensures t == t[..n] + " " + t[n + 1..]
    ensures t[n..] == [' '] + t[n + 1..]
  {
    assert t == t[..n] + t[n..];
    assert t[n..] == [' '] + t[n + 1..];
  }

  /** A collapsed text stays collapsed from the character after a space. */
  lemma CollapsedSuffix(t: string, n: nat)
    requires Collapsed(t) && 0 < n < |t| && IsSpace(t[n - 1])
    ensures Collapsed(t[n..]) && t[n..] != []
  {
    assert IsWordChar(t[n]);
    assert forall k :: 0 <= k < |t[n..]| ==> t[n..][k] == t[n + k];
  }

  /** A text ending in a word character still does after collapsing. */
  lemma {:induction false} CollapseLast(t: string, inRun: bool)
    requires t != [] && IsWordChar(t[|t| - 1])
    ensures CollapseFrom(t, inRun) != [] && IsWordChar(CollapseFrom(t, inRun)[|CollapseFrom(t, inRun)| - 1])
    decreases |t|
  {
    if |t| > 1 {
      CollapseLast(t[1..], IsSpace(t[0]));
    }
  }

  /** The strip and collapse steps of `temizle_metin` produce collapsed text. */
  lemma StripCollapsed(s: string)
    ensures Collapsed(CollapseSpaces(Strip(s)))
  {
    var t := Strip(s);
    if t != [] {
      CollapseHead(t);
      CollapseLast(t, false);
    } else {
      assert CollapseSpaces(t) == [];
    }
  }

  /** `re.sub(r'\s+', ' ', s.strip())` is `" ".join(s.strip().split())`. */
  lemma CollapsedIsJoinedWords(s: string)
    ensures JoinSpace(Split(Strip(s))) == CollapseSpaces(Strip(s))
  {
    StripCollapsed(s);
    SplitJoin(CollapseSpaces(Strip(s)));
    CollapseSpacesKeepsWords(Strip(s));
  }

  /** A leading whitespace character does not change the words. */
  lemma SplitSpaceCons(c: char, t: string)
    requires IsSpace(c)
    ensures Split([c] + t) == Split(t)
  {
    assert ([c] + t)[1..] == t;
    assert TrimLeft([c] + t) == TrimLeft(t);
  }

  /** A leading word character extends the first word. */
  lemma WordCons(c: char, t: string)
    requires IsWordChar(c)
    ensures Word([c] + t) == [c] + Word(t)
  {
    assert ([c] + t)[1..] == t;
  }

  /** A word character before whitespace (or the end) is a word of its own. */
  lemma SplitWordAlone(c: char, t: string)
    requires IsWordChar(c) && (t == [] || IsSpace(t[0]))
    ensures Split([c] + t) == [[c]] + Split(t)
  {
    var s := [c] + t;
    assert TrimLeft(s) == s;
    assert Word(s) == [c] by {
      WordCons(c, t);
      assert Word(t) == [];
    }
    assert s[1..] == t;
  }

  /** A word character before another one joins the first word. */
  lemma SplitWordJoin(c: char, t: string)
    requires IsWordChar(c) && t != [] && IsWordChar(t[0])
    ensures Split(t) != [] && Split([c] + t) == [[c] + Split(t)[0]] + Split(t)[1..]
  {
    var s := [c] + t;
    var w := Word(t);
    var rest := t[|w|..];
    assert Split(t) == [w] + Split(rest) by {
      assert TrimLeft(t) == t;
    }
    assert Split(s) == [[c] + w] + Split(rest) by {
      assert TrimLeft(s) == s;
      WordCons(c, t);
      assert s[|Word(s)|..] == rest;
    }
    assert Split(t)[0] == w && Split(t)[1..] == Split(rest);
  }

  /** Collapsing whitespace runs keeps the words: `str.split()` of the
      collapsed text is that of the original, for either run flag. */
  lemma {:induction false} CollapseKeepsWords(s: string, inRun: bool)
    ensures Split(CollapseFrom(s, inRun)) == Split(s)
    decreases |s|
  {
    if s != [] {
      CollapseKeepsWords(s[1..], IsSpace(s[0]));
      if IsSpace(s[0]) {
        CollapseSpaceStep(s, inRun);
      } else {
        assert s == [s[0]] + s[1..];
        CollapseWordStep(s[0], s[1..], inRun);
      }
    }
  }

  /** `re.sub(r'\s+', ' ', s)` leaves `s.split()` as it was. */
  lemma CollapseSpacesKeepsWords(s: string)
    ensures Split(CollapseSpaces(s)) == Split(s)
  {
    CollapseKeepsWords(s, false);
  }

  /** The step of `CollapseKeepsWords` for a leading whitespace character. */
  lemma CollapseSpaceStep(s: string, inRun: bool)
    requires s != [] && IsSpace(s[0])
    requires Split(CollapseFrom(s[1..], true)) == Split(s[1..])
    ensures Split(CollapseFrom(s, inRun)) == Split(s)
  {
    var rest := CollapseFrom(s[1..], true);
    assert s == [s[0]] + s[1..];
    SplitSpaceCons(s[0], s[1..]);
    if !inRun {
      assert CollapseFrom(s, inRun) == [' '] + rest;
      SplitSpaceCons(' ', rest);
    }
  }

  /** The step of `CollapseKeepsWords` for a leading word character. */
  lemma CollapseWordStep(c: char, t: string, inRun: bool)
    requires IsWordChar(c)
    requires Split(CollapseFrom(t, false)) == Split(t)
    ensures Split(CollapseFrom([c] + t, inRun)) == Split([c] + t)
  {
    CollapseUnfold(c, t, inRun);
    CollapseHead(t);
    SplitConsSame(c, t, CollapseFrom(t, false));
  }

  /** A word character is copied to the front of the collapsed rest. */
  lemma CollapseUnfold(c: char, t: string, inRun: bool)
    requires IsWordChar(c)
    ensures CollapseFrom([c] + t, inRun) == [c] + CollapseFrom(t, false)
  {
    assert ([c] + t)[1..] == t;
  }

  /** Outside a run, collapsing keeps emptiness and whether the text starts
      with whitespace. */
  lemma CollapseHead(t: string)
    ensures t == [] <==> CollapseFrom(t, false) == []
    ensures t != [] && CollapseFrom(t, false) != [] ==> (IsSpace(t[0]) <==> IsSpace(CollapseFrom(t, false)[0]))
  {
    if t != [] {
      assert CollapseFrom(t, false)[0] == if IsSpace(t[0]) then ' ' else t[0];
    }
  }

  /** Two texts with the same words that are both empty, both start with
      whitespace or both start with a word character keep the same words
      after one more word character in front. */
  lemma SplitConsSame(c: char, t: string, u: string)
    requires IsWordChar(c) && Split(t) == Split(u)
    requires t == [] <==> u == []
    requires t != [] && u != [] ==> (IsSpace(t[0]) <==> IsSpace(u[0]))
    ensures Split([c] + t) == Split([c] + u)
  {
    if t == [] || IsSpace(t[0]) {
      SplitWordAlone(c, t);
      SplitWordAlone(c, u);
    } else {
      SplitWordJoin(c, t);
      SplitWordJoin(c, u);
    }
  }

  /** `kelimelere_ayir`: the words of the normalised text that are not stop-words,
      in the order they occur. */
  function Tokenize(stopWords: seq<string>, s: string): (ws: seq<string>)
    ensures forall w :: w in ws <==> w in Split(Normalize(s)) && w !in stopWords
  {
    Filter(Split(Normalize(s)), w => w !in stopWords)
  }

  /** The tokens are the words of the normalised text in their order and with
      their repetitions: token `i` is word `f[i]` for ascending positions `f`,
      and every word that is not a stop-word is among them. */
  lemma TokenizeOrder(stopWords: seq<string>, s: string) returns (f: seq<nat>)
    ensures var words := Split(Normalize(s));
            && |f| == |Tokenize(stopWords, s)| && Ascending(f, |words|)
            && (forall i :: 0 <= i < |f| ==> Tokenize(stopWords, s)[i] == words[f[i]])
            && (forall k :: 0 <= k < |words| && words[k] !in stopWords ==> k in f)
  {
    f := FilterPositions(Split(Normalize(s)), w => w !in stopWords);
  }

  /** No token is empty, contains whitespace or is a stop-word. */
  lemma TokenizeWords(stopWords: seq<string>, s: string)
    ensures forall i | 0 <= i < |Tokenize(stopWords, s)| ::
      IsWord(Tokenize(stopWords, s)[i]) && Tokenize(stopWords, s)[i] !in stopWords
  {
    var words := Split(Normalize(s));
    var ws := Tokenize(stopWords, s);
    SplitWords(Normalize(s));
    forall i | 0 <= i < |ws|
      ensures IsWord(ws[i]) && ws[i] !in stopWords
    {
      assert ws[i] in ws;
      var j :| 0 <= j < |words| && words[j] == ws[i];
    }
  }

  /** Without stop-words the tokens, joined, spell out the normalised text
      minus its whitespace: nothing is lost, added or reordered. */
  lemma TokensSpellText(s: string)
    ensures Concat(Tokenize([], s)) == NonSpace(Normalize(s))
  {
    FilterAll(Split(Normalize(s)), (w: string) => w !in []);
    SplitContent(Normalize(s));
  }
}

=== FILE: wrappers.dfy ===
/** Optional values: Python's `None`-or-value returns. */
module Wrappers {

  datatype Option<+T> = None | Some(value: T)
}
